=== FILE: README.md ===
# Neutron core plugin: address-management decisions

This project models the decision logic of Neutron's base core plugin
(`neutron/db/db_base_plugin_v2.py`): the rules a subnet must satisfy on
create and update, how a create request picks its subnet pool, how a
prefix-delegated subnet's ports are renumbered, which IP allocations block
deleting a subnet or network, how subnet-pool prefixes may change and how
pools join address scopes, and when a network may stop being shared or an
RBAC grant may be withdrawn.

Database sessions, callbacks and RPC are stripped away. Each operation is a
pure function over in-memory records (`Subnet`, `SubnetSpec`,
`SubnetRequest`, `SubnetPool`, `Port`, `Allocation`, `RbacEntry`). It returns
`Pass`/`Fail` or `Success`/`Failure` carrying the error kind the plugin
raises. Addresses are naturals tagged with an IP version. A CIDR is an
(address, length) pair, and an address set (`netaddr.IPSet`) is the set of
addresses its prefixes cover.

Helpers whose bodies are not part of this model are passed in as function
values. `Env` holds `check_gateway_invalid_in_subnet`,
`is_auto_address_subnet`, `is_ipv6_pd_enabled` and the configuration values.
`ScopeDirectory` holds address-scope ownership and IP version.

Files:

- `wrappers.dfy`: `Option`, `Result`, `Outcome`.
- `address_math.dfy`: addresses, prefixes, the address sets they cover,
  canonical form, overlap and containment.
- `compaction.dfy`: `IPSet.compact()` / `iter_cidrs()`, which turn a prefix
  list into a sorted list of disjoint, merged CIDR blocks.
- `entities.dfy`: records, constants, error kinds and the helper oracles.
- `subnet_validator.dfy`: `_validate_subnet` and its helpers.
- `subnetpools.dfy`: subnet-pool update, default pools, address scopes and deletion.
- `networks.dfy`: the `shared` flag, RBAC withdrawal and the port guard of `delete_network`.
- `subnet_lifecycle.dfy`: `_get_subnetpool_id`, `create_subnet`, the update
  pre- and post-commit decisions, and `delete_subnet`.

## Model

| member | source | states |
|---|---|---|
| `AddressMath.Canonical` | neutron/db/db_base_plugin_v2.py:696-699 | the rewritten cidr has no host bits and keeps the family, prefix length and covered addresses |
| `AddressMath.OverlapIffShared` | neutron/db/db_base_plugin_v2.py:987-992 | two CIDR blocks overlap exactly when their address sets intersect |
| `AddressMath.ContainsIffSubset` | neutron/db/db_base_plugin_v2.py:96-98 | one block lies inside another exactly when its address set is a subset |
| `AddressMath.NestedOrDisjoint` | neutron/db/db_base_plugin_v2.py:101-103 | two overlapping CIDR blocks are nested, which is what makes merging into CIDRs sound |
| `Compaction.Compact` | neutron/db/db_base_plugin_v2.py:101-103 | the compacted list covers exactly the input's addresses; its blocks are canonical, disjoint, sorted and have no mergeable sibling |
| `Compaction.Insert` | neutron/db/db_base_plugin_v2.py:101-103 | adding one block to a compacted list keeps it compacted and adds exactly that block's addresses |
| `Compaction.ParentCoversBothHalves` | neutron/db/db_base_plugin_v2.py:101-103 | merging two sibling blocks gives a block covering exactly their union |
| `SubnetValidator.ValidateSubnet` | neutron/db/db_base_plugin_v2.py:465-562 | the spec passes exactly when every rule holds: cidr family, DHCP range, gateway, nameservers, host routes, and the IPv4/IPv6 mode rules |
| `SubnetValidator.CheckGateway` | neutron/db/db_base_plugin_v2.py:504-527 | a gateway of the wrong family fails with the gateway mismatch error, then an invalid one with GatewayNotValid; on update without prefix delegation, an old gateway bound to a router port fails with GatewayIpInUse naming that allocation |
| `SubnetValidator.RouterAllocationOf` | neutron/db/db_base_plugin_v2.py:516-527 | finds an allocation binding the stored gateway to a router port exactly when one exists |
| `SubnetValidator.CheckDnsNameservers` | neutron/db/db_base_plugin_v2.py:529-541 | passes exactly when the list is within quota and every nameserver parses and matches the family; within quota, a failure is the error of the first bad nameserver |
| `SubnetValidator.CheckDnsList` | neutron/db/db_base_plugin_v2.py:535-541 | passes exactly when every nameserver parses and has the subnet's family; a failure is the first bad nameserver's own error (unparseable, else wrong family) |
| `SubnetValidator.FirstBadDnsUnique` | neutron/db/db_base_plugin_v2.py:535-541 | the first bad nameserver determines a single error |
| `SubnetValidator.CheckHostRoutes` | neutron/db/db_base_plugin_v2.py:543-550 | passes exactly when the route list is within quota and every route is valid; within quota, a failure is the error of the first bad route |
| `SubnetValidator.CheckRouteList` | neutron/db/db_base_plugin_v2.py:223-236 | passes exactly when both ends of every route parse and match the subnet's family; a failure is the first bad route's own error (an unparseable end, else the next hop's family, else the destination's) |
| `SubnetValidator.FirstBadRouteUnique` | neutron/db/db_base_plugin_v2.py:223-236 | the first bad route determines a single error |
| `SubnetValidator.CheckNoIpv6Modes` | neutron/db/db_base_plugin_v2.py:552-560 | an IPv4 spec passes exactly when it carries no IPv6 mode; an RA mode is reported first, then an address mode, each with its own error |
| `SubnetValidator.CheckIpv6Attributes` | neutron/db/db_base_plugin_v2.py:258-298 | an IPv6 spec passes exactly when the create rules hold (modes need DHCP, equal modes, /64 for auto-addressing) or, on update, the DHCP-disable rule holds; each create rule reports its own error in that order, and an update failure is CannotDisableDhcp |
| `SubnetValidator.CheckIpv6UpdateDhcp` | neutron/db/db_base_plugin_v2.py:300-318 | disabling DHCP fails exactly when the request or the stored subnet has an IPv6 mode |
| `SubnetValidator.ValidateSubnetForPd` | neutron/db/db_base_plugin_v2.py:564-584 | prefix delegation passes exactly for IPv6 with both modes SLAAC or DHCPv6-stateless |
| `SubnetValidator.CidrFamilyReportedFirst` | neutron/db/db_base_plugin_v2.py:475-478 | a cidr of the wrong family is the error reported, whatever else is wrong |
| `SubnetValidator.DhcpRangeReported` | neutron/db/db_base_plugin_v2.py:482-502 | enabling DHCP on IPv4 longer than /30, IPv6 longer than /126, or a multicast or loopback cidr reports that error |
| `SubnetValidator.DhcpRangeOnlyWhenEnabling` | neutron/db/db_base_plugin_v2.py:482-487 | when DHCP was already enabled, no DHCP-range error is ever reported |
| `SubnetValidator.GatewayInUseReported` | neutron/db/db_base_plugin_v2.py:515-527 | on update without prefix delegation, setting a gateway while the old one is on a router port raises GatewayIpInUse naming the old gateway |
| `SubnetValidator.QuotasReported` | neutron/db/db_base_plugin_v2.py:529-546 | too many nameservers or host routes raise the matching quota error |
| `SubnetValidator.FamilyMismatchRejected` | neutron/db/db_base_plugin_v2.py:454-560 | a gateway, nameserver or route of the wrong family, or an IPv6 mode on IPv4, is rejected; once the earlier rules hold, a wrong-family or invalid gateway and each IPv4 mode error is exactly the one reported |
| `SubnetValidator.FirstBadEntryReported` | neutron/db/db_base_plugin_v2.py:529-550 | once the cidr, DHCP and gateway rules hold, a within-quota nameserver list with a bad entry fails with the first bad nameserver's error; once the nameservers pass, the same holds for host routes |
| `SubnetValidator.Ipv6ModeRulesEnforced` | neutron/db/db_base_plugin_v2.py:258-318 | each IPv6 mode rule, on create and on update, rejects its violations; once the earlier rules hold, each reports its own error in source order |
| `SubnetPools.PrefixListsOverlapIffShared` | neutron/db/db_base_plugin_v2.py:987-992 | comparing prefixes pairwise decides whether two address sets intersect |
| `SubnetPools.UpdateSubnetpoolDict` | neutron/db/db_base_plugin_v2.py:89-108 | rejects exactly when new prefixes do not cover the old addresses; otherwise stores them compacted and covering exactly the requested addresses, and every absent field keeps its stored value |
| `SubnetPools.UpdateNothingKeepsPool` | neutron/db/db_base_plugin_v2.py:89-108 | an update naming no field leaves the pool unchanged |
| `SubnetPools.ResendingPrefixesAccepted` | neutron/db/db_base_plugin_v2.py:95-103 | new prefixes covering the same addresses are accepted and keep the pool's address set |
| `SubnetPools.DefaultPool` | neutron/db/db_base_plugin_v2.py:1109-1116 | returns the first pool marked default for the family, and none exactly when there is no such pool |
| `SubnetPools.CheckDefaultSubnetpoolExists` | neutron/db/db_base_plugin_v2.py:1012-1021 | fails exactly when a default pool of the family exists |
| `SubnetPools.ConflictingPool` | neutron/db/db_base_plugin_v2.py:987-992 | finds a pool of the scope, other than the excluded one, whose addresses meet the new prefixes, and none exactly when there is none |
| `SubnetPools.ValidateAddressScopeId` | neutron/db/db_base_plugin_v2.py:954-993 | passes exactly when no scope is set, or the caller owns it, its family matches and no other pool in it shares an address; each failing guard reports its own error in that order, ending with AddressScopePrefixConflict |
| `SubnetPools.CreateSubnetpool` | neutron/db/db_base_plugin_v2.py:1023-1052 | succeeds exactly when a new default finds no existing default and the scope check, excluding no pool, passes; an existing default reports DefaultSubnetpoolExists, and otherwise a failing scope check reports its own error |
| `SubnetPools.CreatePreservesPoolsInvariant` | neutron/db/db_base_plugin_v2.py:1023-1052 | creation keeps at most one default pool per family and keeps pools of one scope address-disjoint |
| `SubnetPools.UpdateSubnetpool` | neutron/db/db_base_plugin_v2.py:1054-1084 | succeeds exactly when the merged pool exists and passes every guard, and then stores that pool and reports whether its scope changed; each failing guard reports its own error, in source order: prefix shrink, existing default (checked only when becoming default), foreign scope, then the scope check excluding the pool itself |
| `SubnetPools.UpdatePreservesPoolsInvariant` | neutron/db/db_base_plugin_v2.py:1054-1084 | an update written back keeps at most one default per family and keeps scopes address-disjoint |
| `SubnetPools.DeleteSubnetpool` | neutron/db/db_base_plugin_v2.py:1118-1126 | an unknown pool id is not found; a stored pool is refused exactly when a subnet was allocated from it; otherwise only that pool goes |
| `SubnetPools.DeleteKeepsSubnetsAnchored` | neutron/db/db_base_plugin_v2.py:1118-1126 | after a deletion every subnet's pool still exists |
| `Networks.EnsureNoTenantPortsOnNetwork` | neutron/db/db_base_plugin_v2.py:189-218 | withdrawing `*` fails exactly when a port's tenant is neither the owner nor named by another grant; withdrawing a tenant passes when a `*` grant exists, else fails exactly when that tenant has a port |
| `Networks.PassedWithdrawalStrandsNoPort` | neutron/db/db_base_plugin_v2.py:189-218 | a withdrawal that passes leaves every port's tenant with access |
| `Networks.WithdrawalRefusedIffPortStranded` | neutron/db/db_base_plugin_v2.py:189-218 | for a tenant other than the owner, a withdrawal is refused exactly when it would strand a port |
| `Networks.ValidateNetworkRbacPolicyChange` | neutron/db/db_base_plugin_v2.py:150-187 | only shared-network policies are vetted; creating or updating needs admin or ownership; an authorised delete or retargeting gives exactly the withdrawal check's outcome for the tenant losing access, and anything else passes |
| `Networks.PolicyWithdrawalStrandsNoPort` | neutron/db/db_base_plugin_v2.py:176-187 | a policy deletion or retargeting that passes leaves every port on the network reachable, even with all the old target's grants withdrawn |
| `Networks.PolicyWithdrawalRefusedIffStranded` | neutron/db/db_base_plugin_v2.py:166-187 | an authorised deletion or retargeting of a grant to a tenant other than the owner is refused exactly when withdrawing that tenant's grants would strand a port |
| `Networks.ValidateSharedUpdate` | neutron/db/db_base_plugin_v2.py:238-256 | only turning sharing off can fail, and the failure names the network |
| `Networks.UnshareRefusedIffForeignTenant` | neutron/db/db_base_plugin_v2.py:238-256 | unsharing is refused exactly when a tenant other than the owner depends on the network |
| `Networks.WildcardEntry` | neutron/db/db_base_plugin_v2.py:378-384 | finds a wildcard `access_as_shared` grant exactly when one exists |
| `Networks.UpdateNetworkShared` | neutron/db/db_base_plugin_v2.py:372-394 | a request without `shared`, or one matching the current state, changes nothing; the update fails exactly when unsharing a shared network with a foreign dependent tenant; sharing adds one `*` grant owned by the network's tenant; grants other than `*` grants are kept exactly |
| `Networks.UpdateSharedTakesEffect` | neutron/db/db_base_plugin_v2.py:377-394 | after a successful update the network is shared exactly as requested, with at most one wildcard grant, and every other grant is unchanged |
| `Networks.DeleteNetworkPorts` | neutron/db/db_base_plugin_v2.py:403-416 | deletion fails exactly when a port not owned by DHCP is on the network; otherwise exactly the other networks' ports remain |
| `SubnetLifecycle.GetSubnetpoolId` | neutron/db/db_base_plugin_v2.py:640-681 | pool id and use-default together fail; an explicit pool is returned; no use-default gives none; otherwise the prefix-delegation pool for IPv6 with PD, else the first default pool of the family, else BadRequest |
| `SubnetLifecycle.CreateSubnet` | neutron/db/db_base_plugin_v2.py:683-726 | cidr with prefixlen fails; a pool-selection error is passed on unchanged; no pool and no cidr fails; a named pool gets the canonical cidr and the pool; a prefix-delegated subnet without a cidr gets `::/64` exactly when its PD modes are valid, else fails with their error; with a cidr and no real pool the request succeeds exactly when every validation rule holds, else fails with the validator's error |
| `SubnetLifecycle.CreateIgnoresHostBits` | neutron/db/db_base_plugin_v2.py:696-699 | a request with host bits in its cidr is handled exactly like the canonical one |
| `SubnetLifecycle.PoolLessSubnetsAreValidated` | neutron/db/db_base_plugin_v2.py:701-725 | without a pool, no cidr fails, and with a cidr the request succeeds exactly when the validation rules hold |
| `SubnetLifecycle.UpdateSubnetPrecommit` | neutron/db/db_base_plugin_v2.py:748-800 | fails exactly when validation against the stored subnet fails, with the validator's error; a PD subnet given a cidr takes it with the first host as gateway; otherwise the cidr is kept and the gateway is the requested one, else the stored one; the gateway change flag is set exactly when the gateway differs |
| `SubnetLifecycle.UpdateRefusesGatewayInUse` | neutron/db/db_base_plugin_v2.py:515-527 | an update setting a gateway on a subnet not under prefix delegation, while the stored gateway is bound to a router port, fails with GatewayIpInUse naming the stored gateway |
| `SubnetLifecycle.UpdatedGatewayValidated` | neutron/db/db_base_plugin_v2.py:504-510 | outside prefix delegation, a gateway the update applies has the subnet's family and is valid in its stored cidr |
| `SubnetLifecycle.RenumberedGatewayInsidePrefix` | neutron/db/db_base_plugin_v2.py:770-776 | the gateway chosen for a delegated prefix lies inside it and is not its network address |
| `SubnetLifecycle.RewriteFixedIps` | neutron/db/db_base_plugin_v2.py:824-840 | entries on the subnet get the gateway (router interfaces) or lose their address (others); other entries are untouched |
| `SubnetLifecycle.RewriteIdempotent` | neutron/db/db_base_plugin_v2.py:824-840 | renumbering an already renumbered port changes nothing |
| `SubnetLifecycle.RoutersOf` | neutron/db/db_base_plugin_v2.py:825-833 | the routers notified are exactly the devices of router-interface ports on the subnet |
| `SubnetLifecycle.UpdateSubnetPostcommit` | neutron/db/db_base_plugin_v2.py:811-852 | ports are rewritten only when the cidr changed under prefix delegation, and then exactly the subnet's ports; the gateway notification fires exactly when the gateway changed |
| `SubnetLifecycle.RenumberedPortsHoldOnlyGateway` | neutron/db/db_base_plugin_v2.py:818-840 | after renumbering, the only address a port keeps on the subnet is the gateway, on a router interface |
| `SubnetLifecycle.DeleteSubnet` | neutron/db/db_base_plugin_v2.py:882-930 | deletion fails exactly when vetoed, or (auto-address) a router interface is on the subnet, or (otherwise) a non-DHCP allocation is on it; on success exactly the other subnets' allocations remain |
| `SubnetLifecycle.DhcpOnlySubnetDeletable` | neutron/db/db_base_plugin_v2.py:895-927 | a subnet used only by DHCP ports, and not vetoed, can be deleted |

## Left out

- Database sessions, transactions, retries, bulk creation, pagination and the `get_*` readers. State is passed in as plain sequences.
- Callback notifications, the Nova notifier, L3 agent RPC and `_update_router_gw_ports`. The before-delete veto of `_check_subnet_not_used` is a boolean parameter of `SubnetLifecycle.DeleteSubnet`.
- IPAM backend internals are not part of this model: `allocate_subnet`, `generate_pools`, `validate_pools_with_subnetpool`, `validate_allocation_pools`, `validate_gw_out_of_pools`, `update_db_subnet`. The precommit decision stops at the cidr and gateway it hands to IPAM.
- `SubnetPoolReader` and the pool-creation call path are not part of this model. `SubnetPools.CreateSubnetpool` takes the pool the reader built.
- Textual parsing by `netaddr`. A nameserver or host route is either a parsed address or prefix, or unparseable.
- `netaddr`'s multicast and loopback tests are modelled as containment in 224.0.0.0/4, ff00::/8, 127.0.0.0/8 and ::1/128.
- The loop after `update_subnetpool` commits (lines 1086-1087) is not modelled. It stores under the literal key `'key'` instead of each prefix-length field.
- `create_subnetpool` passes the builtin `id` as the pool id. It matches no stored pool, so creation excludes no pool from the scope conflict check.
- The branch at lines 720-723 of `create_subnet` is not modelled. Lines 702-704 have already rejected a request with no pool and no cidr, so it can never run.
- `delete_network`'s subnet-cleanup loop calls `delete_subnet`, which is modelled on its own.
- MAC address checks, port creation and port updates are not part of this model. The postcommit step returns the port bodies it would send.
- Clearing a gateway with an explicit `null` in an update request is not modelled. An absent `gateway_ip` keeps the stored one.
- Compaction.Compact: proves exact coverage, canonical blocks, disjointness, ascending order with IPv4 first, and no mergeable sibling pair. It does not prove that such a list is unique, and so does not prove that it equals the one `netaddr` prints.
- Networks.ValidateNetworkRbacPolicyChange: a missing network is not modelled, because `_get_network` raises NotFound before any decision. The caller supplies the network the policy names.
- Networks.WithdrawalRefusedIffPortStranded: only for a tenant other than the owner. Withdrawing a grant that names the owner is refused while the owner has ports and no wildcard grant exists, even though the owner keeps access.
- SubnetLifecycle.CreateSubnet: requires `ip_version`, which the subnet API schema makes mandatory on create. So the `IpVersionMissing` branch of `SubnetLifecycle.GetSubnetpoolId` (lines 667-671) is modelled but cannot be reached through create.
- Visibility of rows: the port, subnet and pool sequences are the rows the caller's context reads (lines 243-249, 984-985 and 1114). `ensure_no_tenant_ports_on_network` reads with an admin context (line 191). So `Networks.UnshareRefusedIffForeignTenant`, `SubnetPools.CreatePreservesPoolsInvariant` and `SubnetPools.UpdatePreservesPoolsInvariant` describe the program when the caller sees every row, as an admin does. Tenant-scoped row filtering is not modelled.
- SubnetPools.UpdateSubnetpoolDict: the update request has no field for `id`, `tenant_id`, `ip_version` or `shared`, so these always keep their stored values. `_update_subnetpool_dict` would copy them from the request, but the subnet-pool API does not accept these keys on update.

=== FILE: address_math.dfy ===
/** IP addresses and CIDR prefixes as version-tagged naturals, and the address
    sets they denote. This stands in for the parts of `netaddr` the plugin
    relies on (`IPNetwork`, `IPSet`, containment and intersection); textual
    parsing is not modelled. */
module AddressMath {

  datatype IpVersion = V4 | V6

  /** Number of bits in an address of the given family. */
  function Width(v: IpVersion): nat {
    if v == V4 then 32 else 128
  }

  function Pow2(n: nat): (r: nat)
    ensures r > 0
  {
    if n == 0 then 1 else 2 * Pow2(n - 1)
  }

  /** An address: its family and its value as an unsigned integer. */
  datatype Address = Address(version: IpVersion, value: nat)

  predicate ValidAddress(a: Address) {
    a.value < Pow2(Width(a.version))
  }

  /** A CIDR as written by a client: an address, possibly with host bits set,
      and a prefix length. */
  datatype Prefix = Prefix(version: IpVersion, addr: nat, len: nat)

  predicate ValidPrefix(p: Prefix) {
    p.len <= Width(p.version) && p.addr < Pow2(Width(p.version))
  }

  function HostBits(p: Prefix): nat {
    if p.len <= Width(p.version) then Width(p.version) - p.len else 0
  }

  /** Number of addresses the prefix covers. */
  function Size(p: Prefix): nat {
    Pow2(HostBits(p))
  }

  /** Position of the prefix's block among the blocks of its size. */
  function Index(p: Prefix): nat {
    Quotient(p.addr, Size(p))
  }

  function Quotient(a: nat, s: nat): nat
    requires s > 0
  {
    a / s
  }

  /** First address of the block (`IPNetwork.network`). */
  function Network(p: Prefix): nat {
    Index(p) * Size(p)
  }

  /** The address carries no host bits: it is the network address. */
  predicate Aligned(p: Prefix) {
    p.addr == Network(p)
  }

  predicate InBlock(p: Prefix, a: Address) {
    a.version == p.version && Network(p) <= a.value < Network(p) + Size(p)
  }

  /** The addresses a prefix covers. */
  function Addresses(p: Prefix): set<Address> {
    set v: nat | Network(p) <= v < Network(p) + Size(p) :: Address(p.version, v)
  }

  /** The addresses a list of prefixes covers (`netaddr.IPSet(prefixes)`). */
  function Covered(ps: seq<Prefix>): set<Address> {
    set q, a | q in ps && a in Addresses(q) :: a
  }

  /** The two prefixes share at least one address. */
  predicate Overlap(p: Prefix, q: Prefix) {
    p.version == q.version
    && Network(p) < Network(q) + Size(q)
    && Network(q) < Network(p) + Size(p)
  }

  /** Every address of `q` is an address of `p`. */
  predicate Contains(p: Prefix, q: Prefix) {
    p.version == q.version
    && Network(p) <= Network(q)
    && Network(q) + Size(q) <= Network(p) + Size(p)
  }

  /** The prefix with its host bits cleared, as `'%s/%s' % (net.network,
      net.prefixlen)` renders it. */
  function Canonical(p: Prefix): (r: Prefix)
    ensures Aligned(r) && r.version == p.version && r.len == p.len
    ensures Addresses(r) == Addresses(p)
    ensures ValidPrefix(p) ==> ValidPrefix(r)
  {
    var r := Prefix(p.version, Network(p), p.len);
    assert Size(r) == Size(p);
    DivMulCancel(Index(p), Size(p));
    DivBounds(p.addr, Size(p));
    r
  }

  /** A well-formed member of a stored prefix list: in range and canonical. */
  predicate WellFormedBlock(p: Prefix) {
    ValidPrefix(p) && Aligned(p)
  }

  // ---------------------------------------------------------------------
  // Address-set facts

  lemma AddressesMember(p: Prefix, a: Address)
    ensures a in Addresses(p) <==> InBlock(p, a)
  {
    if InBlock(p, a) {
      assert a == Address(p.version, a.value);
    }
  }

  lemma CoveredMember(ps: seq<Prefix>, a: Address)
    ensures a in Covered(ps) <==> exists q :: q in ps && InBlock(q, a)
  {
    if a in Covered(ps) {
      var q :| q in ps && a in Addresses(q);
      AddressesMember(q, a);
    }
    if exists q :: q in ps && InBlock(q, a) {
      var q :| q in ps && InBlock(q, a);
      AddressesMember(q, a);
    }
  }

  /** Covered depends only on which prefixes occur, not on order or repetition. */
  lemma CoveredSameElements(a: seq<Prefix>, b: seq<Prefix>)
    requires forall x :: x in a <==> x in b
    ensures Covered(a) == Covered(b)
  {
  }

  lemma CoveredCons(p: Prefix, ps: seq<Prefix>)
    ensures Covered([p] + ps) == Addresses(p) + Covered(ps)
  {
    assert forall x :: x in [p] + ps <==> x == p || x in ps;
  }

  /** `Overlap` is exactly "the address sets intersect". */
  lemma OverlapIffShared(p: Prefix, q: Prefix)
    ensures Overlap(p, q) <==> Addresses(p) * Addresses(q) != {}
  {
    if Overlap(p, q) {
      var v := if Network(p) <= Network(q) then Network(q) else Network(p);
      var a := Address(p.version, v);
      AddressesMember(p, a);
      AddressesMember(q, a);
      assert a in Addresses(p) * Addresses(q);
    }
    if Addresses(p) * Addresses(q) != {} {
      var a :| a in Addresses(p) * Addresses(q);
      AddressesMember(p, a);
      AddressesMember(q, a);
    }
  }

  /** `Contains` is exactly address-set inclusion. */
  lemma ContainsIffSubset(p: Prefix, q: Prefix)
    ensures Contains(p, q) <==> Addresses(q) <= Addresses(p)
  {
    if Contains(p, q) {
      forall a | a in Addresses(q) ensures a in Addresses(p) {
        AddressesMember(q, a);
        AddressesMember(p, a);
      }
    }
    if Addresses(q) <= Addresses(p) {
      var lo := Address(q.version, Network(q));
      var hi := Address(q.version, Network(q) + Size(q) - 1);
      AddressesMember(q, lo);
      AddressesMember(q, hi);
      AddressesMember(p, lo);
      AddressesMember(p, hi);
    }
  }

  /** Two CIDR blocks are either disjoint or one lies inside the other. */
  lemma {:induction false} NestedOrDisjoint(p: Prefix, q: Prefix)
    requires Overlap(p, q)
    ensures Contains(p, q) || Contains(q, p)
  {
    if HostBits(p) <= HostBits(q) {
      SmallerBlockNests(p, q);
    } else {
      SmallerBlockNests(q, p);
    }
  }

  lemma SmallerBlockNests(small: Prefix, big: Prefix)
    requires Overlap(small, big)
    requires HostBits(small) <= HostBits(big)
    ensures Contains(big, small)
  {
    var m := Pow2(HostBits(big) - HostBits(small));
    Pow2Add(HostBits(small), HostBits(big) - HostBits(small));
    AlignedIntervalsNest(Index(small), Size(small), Index(big), m);
  }

  /** Block `a` of size `s` and block `b` of size `s * m`: if they meet, the
      first lies inside the second. */
  lemma AlignedIntervalsNest(a: nat, s: nat, b: nat, m: nat)
    requires s > 0
    requires a * s < b * (s * m) + s * m && b * (s * m) < a * s + s
    ensures b * (s * m) <= a * s && a * s + s <= b * (s * m) + s * m
  {
    var c := b * m;
    assert b * (s * m) == c * s;
    assert s * m == m * s;
    assert c * s < (a + 1) * s;
    MulStrictCancel(c, a + 1, s);
    MulMonotone(c, a, s);
    assert a * s < (c + m) * s;
    MulStrictCancel(a, c + m, s);
    MulMonotone(a + 1, c + m, s);
  }

  // ---------------------------------------------------------------------
  // Arithmetic

  lemma {:induction false} Pow2Add(a: nat, b: nat)
    ensures Pow2(a + b) == Pow2(a) * Pow2(b)
  {
    if a > 0 {
      Pow2Add(a - 1, b);
    }
  }

  lemma MulMonotone(x: nat, y: nat, s: nat)
    requires x <= y
    ensures x * s <= y * s
  {
    assert y * s == x * s + (y - x) * s;
  }

  lemma MulStrictCancel(x: nat, y: nat, s: nat)
    requires s > 0 && x * s < y * s
    ensures x < y
  {
    if x >= y {
      MulMonotone(y, x, s);
    }
  }

  lemma DivBounds(a: nat, m: nat)
    requires m > 0
    ensures (a / m) * m <= a < (a / m) * m + m
  {
  }

  lemma DivMulCancel(k: nat, m: nat)
    requires m > 0
    ensures (k * m) / m == k
  {
    var q := (k * m) / m;
    DivBounds(k * m, m);
    if q < k {
      MulMonotone(q + 1, k, m);
    } else if q > k {
      MulMonotone(k + 1, q, m);
    }
  }
}

=== FILE: compaction.dfy ===
/** The compacted CIDR form of an address set, as `IPSet.compact()` followed
    by `iter_cidrs()` yields it: canonical blocks, pairwise disjoint, no two
    halves of one parent left unmerged, in ascending order (IPv4 first). The
    list is built by inserting one block at a time; a block that completes its
    parent is merged and the parent is inserted in its place. */
module Compaction {
  import opened AddressMath

  /** Two equal-sized halves of one parent block. */
  predicate Siblings(p: Prefix, q: Prefix) {
    && p.version == q.version && p.len == q.len && 0 < p.len <= Width(p.version)
    && Index(p) != Index(q) && Index(p) / 2 == Index(q) / 2
  }

  /** The other half of `p`'s parent block. */
  function SiblingOf(p: Prefix): Prefix
    requires 0 < p.len <= Width(p.version)
  {
    var i := Index(p);
    Prefix(p.version, (if i % 2 == 0 then i + 1 else i - 1) * Size(p), p.len)
  }

  /** The block one bit shorter that contains `p`. */
  function Parent(p: Prefix): Prefix
    requires 0 < p.len <= Width(p.version)
  {
    Prefix(p.version, (Index(p) / 2) * (2 * Size(p)), p.len - 1)
  }

  /** Ascending order of `iter_cidrs`: by family, then by network address. */
  predicate Before(p: Prefix, q: Prefix) {
    (p.version == V4 && q.version == V6) || (p.version == q.version && p.addr < q.addr)
  }

  predicate SortedAsc(ps: seq<Prefix>) {
    forall i, j | 0 <= i < j < |ps| :: Before(ps[i], ps[j])
  }

  predicate Disjoint(ps: seq<Prefix>) {
    forall x, y | x in ps && y in ps && x != y :: !Overlap(x, y)
  }

  predicate NoSiblings(ps: seq<Prefix>) {
    forall x, y | x in ps && y in ps :: !Siblings(x, y)
  }

  /** A prefix list in compacted CIDR form. */
  predicate Compacted(ps: seq<Prefix>) {
    && (forall p | p in ps :: WellFormedBlock(p))
    && Disjoint(ps) && NoSiblings(ps) && SortedAsc(ps)
  }

  /** The compacted CIDR form of the addresses `ps` covers. */
  function Compact(ps: seq<Prefix>): (r: seq<Prefix>)
    requires forall p | p in ps :: ValidPrefix(p)
    ensures Compacted(r)
    ensures Covered(r) == Covered(ps)
  {
    CompactInto([], ps)
  }

  function CompactInto(acc: seq<Prefix>, ps: seq<Prefix>): (r: seq<Prefix>)
    requires Compacted(acc)
    requires forall p | p in ps :: ValidPrefix(p)
    ensures Compacted(r)
    ensures Covered(r) == Covered(acc) + Covered(ps)
    decreases |ps|
  {
    if |ps| == 0 then
      acc
    else
      assert ps == [ps[0]] + ps[1..];
      CoveredCons(ps[0], ps[1..]);
      CompactInto(Insert(acc, Canonical(ps[0])), ps[1..])
  }

  /** Adds the addresses of one canonical block to a compacted list. */
  function Insert(acc: seq<Prefix>, p: Prefix): (r: seq<Prefix>)
    requires Compacted(acc) && WellFormedBlock(p)
    ensures Compacted(r)
    ensures Covered(r) == Covered(acc) + Addresses(p)
    decreases p.len
  {
    if exists q | q in acc :: Contains(q, p) then
      AlreadyCovered(acc, p);
      acc
    else
      var rest := Filter(acc, q => !Contains(p, q));
      AbsorbContained(acc, p, rest);
      RestApartFrom(acc, p, rest);
      if 0 < p.len && SiblingOf(p) in rest then
        var s := SiblingOf(p);
        var rest' := Filter(rest, q => q != s);
        ParentCoversBothHalves(p);
        RemoveOne(rest, s, rest');
        Insert(rest', Parent(p))
      else
        AppendApart(rest, p);
        InsertSorted(rest, p)
  }

  // ---------------------------------------------------------------------
  // List helpers

  function Filter(ps: seq<Prefix>, keep: Prefix -> bool): (r: seq<Prefix>)
    ensures forall x :: x in r <==> x in ps && keep(x)
    ensures SortedAsc(ps) ==> SortedAsc(r)
    ensures |r| <= |ps|
  {
    if |ps| == 0 then
      []
    else
      var tail := Filter(ps[1..], keep);
      if keep(ps[0]) then
        HeadBeforeTail(ps);
        [ps[0]] + tail
      else
        tail
  }

  /** Places `p` among the sorted elements of `ps`. */
  function InsertSorted(ps: seq<Prefix>, p: Prefix): (r: seq<Prefix>)
    requires SortedAsc(ps)
    requires forall x | x in ps :: Before(x, p) || Before(p, x)
    ensures SortedAsc(r)
    ensures forall x :: x in r <==> x in ps || x == p
  {
    if |ps| == 0 then
      [p]
    else if Before(p, ps[0]) then
      [p] + ps
    else
      HeadBeforeTail(ps);
      [ps[0]] + InsertSorted(ps[1..], p)
  }

  lemma HeadBeforeTail(ps: seq<Prefix>)
    requires |ps| > 0
    ensures SortedAsc(ps) ==> SortedAsc(ps[1..])
    ensures SortedAsc(ps) ==> forall x | x in ps[1..] :: Before(ps[0], x)
  {
    if SortedAsc(ps) {
      forall x | x in ps[1..] ensures Before(ps[0], x) {
        var k :| 0 <= k < |ps[1..]| && ps[1..][k] == x;
        assert ps[k + 1] == x;
      }
    }
  }

  // ---------------------------------------------------------------------
  // Block facts

  lemma SiblingFacts(p: Prefix)
    requires 0 < p.len <= Width(p.version)
    ensures Aligned(SiblingOf(p)) && Siblings(p, SiblingOf(p))
    ensures Size(SiblingOf(p)) == Size(p)
    ensures ValidPrefix(p) ==> ValidPrefix(SiblingOf(p))
  {
    var i := Index(p);
    var j := if i % 2 == 0 then i + 1 else i - 1;
    var sz := Size(p);
    var s := SiblingOf(p);
    assert s.addr == j * sz;
    assert Size(s) == sz;
    DivMulCancel(j, sz);
    assert Index(s) == j;
    if ValidPrefix(p) {
      var half := Pow2(p.len - 1);
      assert Pow2(p.len) == 2 * half;
      Pow2Add(HostBits(p), p.len);
      assert HostBits(p) + p.len == Width(p.version);
      assert Pow2(Width(p.version)) == sz * (2 * half);
      DivBounds(p.addr, sz);
      SiblingIndexInRange(i, sz, half, p.addr);
    }
  }

  /** If block `i` of size `s` lies below `s * 2 * half`, so does its sibling. */
  lemma SiblingIndexInRange(i: nat, s: nat, half: nat, addr: nat)
    requires s > 0 && i * s <= addr < s * (2 * half)
    ensures (if i % 2 == 0 then i + 1 else i - 1) * s < s * (2 * half)
  {
    var j := if i % 2 == 0 then i + 1 else i - 1;
    assert s * (2 * half) == (2 * half) * s;
    MulStrictCancel(i, 2 * half, s);
    assert j + 1 <= 2 * half;
    MulMonotone(j + 1, 2 * half, s);
    assert (j + 1) * s == j * s + s;
  }

  /** The two halves of block `i / 2` of size `2 * s` are blocks `i` and its
      sibling of size `s`, lower half first. */
  lemma HalvesTile(i: nat, s: nat)
    ensures var k := i / 2;
            var j := if i % 2 == 0 then i + 1 else i - 1;
            && k * (2 * s) <= i * s
            && (i % 2 == 0 ==> i * s == k * (2 * s) && j * s == i * s + s)
            && (i % 2 == 1 ==> j * s == k * (2 * s) && i * s == j * s + s)
  {
    var k := i / 2;
    assert k * (2 * s) == (2 * k) * s;
    if i % 2 == 0 {
      assert i == 2 * k;
      assert (i + 1) * s == i * s + s;
    } else {
      assert i == 2 * k + 1;
      assert i * s == (2 * k) * s + s;
    }
  }

  /** A canonical sibling of `p` can only be `SiblingOf(p)`. */
  lemma CanonicalSiblingUnique(p: Prefix, q: Prefix)
    requires Siblings(p, q) && Aligned(q)
    ensures q == SiblingOf(p)
  {
    assert Size(q) == Size(p);
  }

  /** The parent block is exactly the union of its two halves. */
  lemma ParentCoversBothHalves(p: Prefix)
    requires WellFormedBlock(p) && 0 < p.len
    ensures WellFormedBlock(Parent(p)) && Parent(p).len < p.len
    ensures Addresses(Parent(p)) == Addresses(p) + Addresses(SiblingOf(p))
  {
    var sz := Size(p);
    var i := Index(p);
    var k := i / 2;
    var par := Parent(p);
    var sib := SiblingOf(p);
    SiblingFacts(p);
    assert HostBits(par) == HostBits(p) + 1;
    assert Size(par) == 2 * sz;
    assert par.addr == k * (2 * sz);
    DivMulCancel(k, 2 * sz);
    assert Index(par) == k;
    assert Network(par) == par.addr;
    HalvesTile(i, sz);
    assert Network(p) == i * sz;
    assert Network(sib) == sib.addr;
    forall a ensures a in Addresses(par) <==> a in Addresses(p) || a in Addresses(sib) {
      AddressesMember(par, a);
      AddressesMember(p, a);
      AddressesMember(sib, a);
    }
  }

  // ---------------------------------------------------------------------
  // The cases of Insert

  lemma AlreadyCovered(acc: seq<Prefix>, p: Prefix)
    requires exists q | q in acc :: Contains(q, p)
    ensures Covered(acc) + Addresses(p) == Covered(acc)
  {
    var q :| q in acc && Contains(q, p);
    ContainsIffSubset(q, p);
  }

  /** Dropping the blocks inside `p` loses nothing once `p` is added. */
  lemma AbsorbContained(acc: seq<Prefix>, p: Prefix, rest: seq<Prefix>)
    requires forall x :: x in rest <==> x in acc && !Contains(p, x)
    ensures Covered(rest) + Addresses(p) == Covered(acc) + Addresses(p)
  {
    forall a | a in Covered(acc) ensures a in Covered(rest) + Addresses(p) {
      var q :| q in acc && a in Addresses(q);
      if Contains(p, q) {
        ContainsIffSubset(p, q);
      }
    }
  }

  /** What remains after dropping the blocks inside `p` is a compacted list
      whose blocks all miss `p`. */
  lemma RestApartFrom(acc: seq<Prefix>, p: Prefix, rest: seq<Prefix>)
    requires Compacted(acc) && SortedAsc(rest)
    requires !exists q | q in acc :: Contains(q, p)
    requires forall x :: x in rest <==> x in acc && !Contains(p, x)
    ensures Compacted(rest)
    ensures forall x | x in rest :: !Overlap(p, x)
  {
    forall x | x in rest ensures !Overlap(p, x) {
      if Overlap(p, x) {
        NestedOrDisjoint(p, x);
      }
    }
  }

  /** Removing the sibling from the list loses exactly the sibling's addresses. */
  lemma RemoveOne(rest: seq<Prefix>, s: Prefix, rest': seq<Prefix>)
    requires Compacted(rest) && SortedAsc(rest') && s in rest
    requires forall x :: x in rest' <==> x in rest && x != s
    ensures Compacted(rest')
    ensures Covered(rest') + Addresses(s) == Covered(rest)
  {
    forall a | a in Covered(rest) ensures a in Covered(rest') + Addresses(s) {
      var q :| q in rest && a in Addresses(q);
    }
  }

  /** Inserting a block that misses every listed block and has no listed
      sibling keeps the list compacted. */
  lemma AppendApart(rest: seq<Prefix>, p: Prefix)
    requires Compacted(rest) && WellFormedBlock(p)
    requires forall x | x in rest :: !Overlap(p, x)
    requires !(0 < p.len && SiblingOf(p) in rest)
    ensures forall x | x in rest :: Before(x, p) || Before(p, x)
    ensures Compacted(InsertSorted(rest, p))
    ensures Covered(InsertSorted(rest, p)) == Covered(rest) + Addresses(p)
  {
    forall x | x in rest ensures Before(x, p) || Before(p, x) {
      if x.version == p.version && x.addr == p.addr {
        assert Overlap(p, x);
      }
    }
    var r := InsertSorted(rest, p);
    forall x, y | x in r && y in r ensures !Siblings(x, y) {
      if x == p && Siblings(x, y) {
        CanonicalSiblingUnique(p, y);
      } else if y == p && Siblings(x, y) {
        assert Siblings(p, x);
        CanonicalSiblingUnique(p, x);
      }
    }
    CoveredSameElements(r, [p] + rest);
    CoveredCons(p, rest);
  }
}

=== FILE: entities.dfy ===
/** The records the plugin's decision logic reads and writes, the error kinds
    it raises, the deployment constants it compares against, and the helpers
    from other modules it consults without this model seeing their bodies. */
module Entities {
  import opened Wrappers
  import opened AddressMath

  /** Resource and tenant identifiers (UUID strings, or `'*'` for every tenant). */
  type Id = string

  // ---------------------------------------------------------------------
  // Constants (from neutron_lib.constants and neutron.common.constants)

  const DeviceOwnerNetworkPrefix: string := "network:"
  const DeviceOwnerDhcp: string := "network:dhcp"
  const RouterInterfaceOwners: set<string> :=
    {"network:router_interface", "network:router_interface_distributed",
     "network:ha_router_replicated_interface"}
  /** Ports with these owners never block a subnet or network deletion. */
  const AutoDeletePortOwners: set<string> := {DeviceOwnerDhcp}
  /** The pseudo subnet-pool id that requests IPv6 prefix delegation. */
  const Ipv6PdPoolId: Id := "prefix_delegation"
  /** `::/64`, the cidr a delegated subnet holds until its prefix arrives. */
  const ProvisionalIpv6PdPrefix: Prefix := Prefix(V6, 0, 64)
  const Wildcard: Id := "*"
  const AccessAsShared: string := "access_as_shared"

  // ---------------------------------------------------------------------
  // Subnets

  datatype Ipv6Mode = Slaac | Dhcpv6Stateful | Dhcpv6Stateless

  /** A request field the API layer passes on as text: it parses or it does not. */
  datatype Parsed<T> = Parsed(value: T) | Unparseable

  datatype HostRoute = HostRoute(destination: Parsed<Prefix>, nexthop: Parsed<Address>)

  /** The subnet dictionary `_validate_subnet` checks. Every caller has filled
      `ip_version` and `cidr` before the call; the other fields are absent
      (`None`) when the request did not carry them. */
  datatype SubnetSpec = SubnetSpec(
    ipVersion: IpVersion,
    cidr: Prefix,
    enableDhcp: Option<bool>,
    gatewayIp: Option<Address>,
    dnsNameservers: Option<seq<Parsed<Address>>>,
    hostRoutes: Option<seq<HostRoute>>,
    ipv6RaMode: Option<Ipv6Mode>,
    ipv6AddressMode: Option<Ipv6Mode>,
    subnetpoolId: Option<Id>)

  /** A stored subnet. */
  datatype Subnet = Subnet(
    id: Id,
    networkId: Id,
    tenantId: Id,
    ipVersion: IpVersion,
    cidr: Prefix,
    gatewayIp: Option<Address>,
    enableDhcp: bool,
    ipv6RaMode: Option<Ipv6Mode>,
    ipv6AddressMode: Option<Ipv6Mode>,
    subnetpoolId: Option<Id>)

  /** The body of a create or update subnet request. */
  datatype SubnetRequest = SubnetRequest(
    ipVersion: Option<IpVersion>,
    cidr: Option<Prefix>,
    prefixlen: Option<nat>,
    subnetpoolId: Option<Id>,
    useDefaultSubnetpool: Option<bool>,
    enableDhcp: Option<bool>,
    gatewayIp: Option<Address>,
    dnsNameservers: Option<seq<Parsed<Address>>>,
    hostRoutes: Option<seq<HostRoute>>,
    ipv6RaMode: Option<Ipv6Mode>,
    ipv6AddressMode: Option<Ipv6Mode>)

  // ---------------------------------------------------------------------
  // Ports, allocations, networks and access grants

  /** One entry of a port's `fixed_ips`; `ip_address` may be absent. */
  datatype FixedIp = FixedIp(subnetId: Id, ipAddress: Option<Address>)

  datatype Port = Port(
    id: Id,
    tenantId: Id,
    networkId: Id,
    deviceOwner: string,
    deviceId: Id,
    fixedIps: seq<FixedIp>)

  /** An IP allocation row joined with the port holding it. */
  datatype Allocation = Allocation(portId: Id, deviceOwner: string, subnetId: Id, ipAddress: Address)

  datatype Network = Network(id: Id, tenantId: Id, name: string)

  /** A network RBAC policy row. */
  datatype RbacEntry = RbacEntry(objectId: Id, action: string, targetTenant: Id, tenantId: Id)

  // ---------------------------------------------------------------------
  // Subnet pools

  datatype SubnetPool = SubnetPool(
    id: Id,
    tenantId: Id,
    name: string,
    ipVersion: IpVersion,
    prefixes: seq<Prefix>,
    defaultPrefixlen: nat,
    minPrefixlen: nat,
    maxPrefixlen: nat,
    isDefault: bool,
    shared: bool,
    defaultQuota: Option<nat>,
    addressScopeId: Option<Id>,
    description: string)

  /** The body of an update subnetpool request: `None` means the key is absent.
      Nullable columns take an inner option, so a request can clear them. */
  datatype PoolUpdate = PoolUpdate(
    name: Option<string>,
    prefixes: Option<seq<Prefix>>,
    defaultPrefixlen: Option<nat>,
    minPrefixlen: Option<nat>,
    maxPrefixlen: Option<nat>,
    isDefault: Option<bool>,
    defaultQuota: Option<Option<nat>>,
    addressScopeId: Option<Option<Id>>,
    description: Option<string>)

  // ---------------------------------------------------------------------
  // Collaborators whose bodies are not part of this model

  /** Configuration values and helper predicates the plugin consults. */
  datatype Env = Env(
    maxDnsNameservers: nat,
    maxSubnetHostRoutes: nat,
    ipv6PdEnabled: bool,
    /** `ipam.utils.check_gateway_invalid_in_subnet(cidr, gateway)` */
    gatewayInvalidInSubnet: (Prefix, Address) -> bool,
    /** `ipv6_utils.is_auto_address_subnet`, which reads the two IPv6 modes */
    isAutoAddressSubnet: (Option<Ipv6Mode>, Option<Ipv6Mode>) -> bool,
    /** `ipv6_utils.is_ipv6_pd_enabled`, which reads the subnet-pool id */
    isIpv6PdEnabled: Option<Id> -> bool)

  /** What the plugin learns about address scopes from their own service. */
  datatype ScopeDirectory = ScopeDirectory(
    /** `is_address_scope_owned_by_tenant` for the calling context */
    ownedByCaller: Id -> bool,
    /** `get_ip_version_for_address_scope` */
    ipVersionOf: Id -> IpVersion)

  // ---------------------------------------------------------------------
  // Errors

  /** The field `_validate_ip_version` names in its message. */
  datatype Field = CidrField | GatewayIpField | DnsNameserverField | NexthopField | DestinationField

  /** The distinct causes of `InvalidInput`. */
  datatype InvalidReason =
    | IpVersionMismatch(field: Field)
    | PrefixLengthIncompatibleWithDhcp
    | MulticastWithDhcp
    | LoopbackWithDhcp
    | GatewayNotValid
    | BadDnsAddress
    | BadHostRoute
    | RaModeOnIpv4
    | AddressModeOnIpv4
    | Ipv6ModesWithoutDhcp
    | Ipv6ModeCombination
    | NotEui64Prefix
    | CannotDisableDhcp
    | DefaultSubnetpoolExists
    | NotNetworkOwner

  /** The distinct causes of `BadRequest`. */
  datatype BadRequestReason =
    | PdRequiresIpv6
    | PdRaMode
    | PdAddressMode
    | PoolAndDefaultTogether
    | IpVersionMissing
    | NoDefaultSubnetpool(version: IpVersion)
    | CidrAndPrefixlenTogether
    | NoPoolNoCidr

  datatype Error =
    | InvalidInput(reason: InvalidReason)
    | BadRequest(why: BadRequestReason)
    | GatewayIpInUse(ipAddress: Address, portId: Id)
    | DnsNameServersExhausted(quota: nat)
    | HostRoutesExhausted(quota: nat)
    | IllegalSubnetPoolPrefixUpdate
    | IllegalSubnetPoolAssociationToAddressScope
    | IllegalSubnetPoolIpVersionAssociationToAddressScope(scopeVersion: IpVersion)
    | AddressScopePrefixConflict
    | IllegalSubnetPoolUpdate
    | SubnetPoolDeleteError
    | SubnetPoolNotFound(poolId: Id)
    | InvalidSharedSetting(network: string)
    | SubnetInUse(subnetId: Id)
    | NetworkInUse(networkId: Id)
}

=== FILE: networks.dfy ===
/** Network sharing and deletion: the `shared` flag as a wildcard RBAC grant,
    the checks that a tenant losing access has no ports left behind, and the
    port guard of network deletion. */
module Networks {
  import opened Wrappers
  import opened Entities

  predicate StartsWith(s: string, prefix: string) {
    |prefix| <= |s| && s[..|prefix|] == prefix
  }

  /** An `access_as_shared` grant on the network. */
  predicate SharedGrant(e: RbacEntry, networkId: Id) {
    e.objectId == networkId && e.action == AccessAsShared
  }

  /** Whether `tenant` may use the network: it owns it, or a grant names it or every tenant. */
  predicate HasAccess(entries: seq<RbacEntry>, networkId: Id, owner: Id, tenant: Id) {
    tenant == owner ||
    exists e | e in entries :: SharedGrant(e, networkId) && (e.targetTenant == tenant || e.targetTenant == Wildcard)
  }

  /** The grants left once those targeting `tenant` are withdrawn. */
  function Withdraw(entries: seq<RbacEntry>, networkId: Id, tenant: Id): (r: seq<RbacEntry>)
    ensures forall e :: e in r <==> e in entries && !(SharedGrant(e, networkId) && e.targetTenant == tenant)
  {
    if |entries| == 0 then []
    else
      assert forall e :: e in entries <==> e == entries[0] || e in entries[1..];
      var e := entries[0];
      (if SharedGrant(e, networkId) && e.targetTenant == tenant then [] else [e])
        + Withdraw(entries[1..], networkId, tenant)
  }

  predicate OnNetwork(p: Port, networkId: Id) {
    p.networkId == networkId
  }

  /** Every port on the network belongs to a tenant with access. */
  predicate PortsReachable(entries: seq<RbacEntry>, networkId: Id, owner: Id, ports: seq<Port>) {
    forall p | p in ports && OnNetwork(p, networkId) :: HasAccess(entries, networkId, owner, p.tenantId)
  }

  // ---------------------------------------------------------------------
  // ensure_no_tenant_ports_on_network

  /** The tenants a wildcard withdrawal leaves with access: those named by a
      specific grant, and the owner. */
  function AllowedWithoutWildcard(entries: seq<RbacEntry>, networkId: Id, owner: Id): (r: set<Id>)
    ensures forall t :: t in r <==>
              (t == owner || exists e | e in entries :: SharedGrant(e, networkId) && e.targetTenant != Wildcard && e.targetTenant == t)
  {
    (set e | e in entries && SharedGrant(e, networkId) && e.targetTenant != Wildcard :: e.targetTenant) + {owner}
  }

  predicate HasWildcardGrant(entries: seq<RbacEntry>, networkId: Id) {
    exists e | e in entries :: SharedGrant(e, networkId) && e.targetTenant == Wildcard
  }

  /** `ensure_no_tenant_ports_on_network(network_id, net_tenant_id, tenant_id)`:
      refuse to withdraw `tenant`'s access while it would strand ports. */
  function EnsureNoTenantPortsOnNetwork(networkId: Id, owner: Id, tenant: Id,
                                        entries: seq<RbacEntry>, ports: seq<Port>): (r: Outcome<Error>)
    ensures r.Fail? ==> r.error == InvalidSharedSetting(networkId)
    ensures tenant == Wildcard ==>
              (r.Fail? <==> exists p | p in ports :: OnNetwork(p, networkId) && p.tenantId != owner
                              && forall e | e in entries && SharedGrant(e, networkId) && e.targetTenant != Wildcard ::
                                   e.targetTenant != p.tenantId)
    ensures tenant != Wildcard && HasWildcardGrant(entries, networkId) ==> r.Pass?
    ensures tenant != Wildcard && !HasWildcardGrant(entries, networkId) ==>
              (r.Fail? <==> exists p | p in ports :: OnNetwork(p, networkId) && p.tenantId == tenant)
  {
    if tenant == Wildcard then
      var allowed := AllowedWithoutWildcard(entries, networkId, owner);
      if exists p | p in ports :: OnNetwork(p, networkId) && p.tenantId !in allowed then
        Fail(InvalidSharedSetting(networkId))
      else
        Pass
    else if HasWildcardGrant(entries, networkId) then
      Pass
    else if exists p | p in ports :: OnNetwork(p, networkId) && p.tenantId == tenant then
      Fail(InvalidSharedSetting(networkId))
    else
      Pass
  }

  /** A withdrawal the check lets through strands no port that had access. */
  lemma PassedWithdrawalStrandsNoPort(networkId: Id, owner: Id, tenant: Id,
                                      entries: seq<RbacEntry>, ports: seq<Port>)
    requires PortsReachable(entries, networkId, owner, ports)
    requires EnsureNoTenantPortsOnNetwork(networkId, owner, tenant, entries, ports).Pass?
    ensures PortsReachable(Withdraw(entries, networkId, tenant), networkId, owner, ports)
  {
    var rest := Withdraw(entries, networkId, tenant);
    forall p | p in ports && OnNetwork(p, networkId)
      ensures HasAccess(rest, networkId, owner, p.tenantId)
    {
      if p.tenantId != owner {
        if tenant == Wildcard {
          var allowed := AllowedWithoutWildcard(entries, networkId, owner);
          assert p.tenantId in allowed;
          var e :| e in entries && SharedGrant(e, networkId) && e.targetTenant != Wildcard && e.targetTenant == p.tenantId;
          assert e in rest;
        } else if HasWildcardGrant(entries, networkId) {
          var e :| e in entries && SharedGrant(e, networkId) && e.targetTenant == Wildcard;
          assert e in rest;
        } else {
          var e :| e in entries && SharedGrant(e, networkId) && (e.targetTenant == p.tenantId || e.targetTenant == Wildcard);
          assert e in rest;
        }
      }
    }
  }

  /** For a tenant other than the owner, the check refuses exactly the
      withdrawals that would strand a port. */
  lemma WithdrawalRefusedIffPortStranded(networkId: Id, owner: Id, tenant: Id,
                                         entries: seq<RbacEntry>, ports: seq<Port>)
    requires PortsReachable(entries, networkId, owner, ports)
    requires tenant != owner
    ensures EnsureNoTenantPortsOnNetwork(networkId, owner, tenant, entries, ports).Fail? <==>
            !PortsReachable(Withdraw(entries, networkId, tenant), networkId, owner, ports)
  {
    var rest := Withdraw(entries, networkId, tenant);
    if EnsureNoTenantPortsOnNetwork(networkId, owner, tenant, entries, ports).Fail? {
      if tenant == Wildcard {
        var allowed := AllowedWithoutWildcard(entries, networkId, owner);
        var p :| p in ports && OnNetwork(p, networkId) && p.tenantId !in allowed;
        assert !HasAccess(rest, networkId, owner, p.tenantId);
      } else {
        var p :| p in ports && OnNetwork(p, networkId) && p.tenantId == tenant;
        assert !HasAccess(rest, networkId, owner, p.tenantId);
      }
    } else {
      PassedWithdrawalStrandsNoPort(networkId, owner, tenant, entries, ports);
    }
  }

  // ---------------------------------------------------------------------
  // validate_network_rbac_policy_change

  /** The RBAC event being vetted; an update carries the new target tenant. */
  datatype PolicyEvent = BeforeCreate | BeforeUpdate(newTarget: Id) | BeforeDelete

  datatype Caller = Caller(isAdmin: bool, tenantId: Id)

  /** The tenant whose access the event takes away, if any. */
  function TenantLosingAccess(event: PolicyEvent, policy: RbacEntry): (r: Option<Id>)
    ensures r.Some? <==> event.BeforeDelete? || (event.BeforeUpdate? && event.newTarget != policy.targetTenant)
    ensures r.Some? ==> r.value == policy.targetTenant
  {
    match event
    case BeforeCreate => None
    case BeforeUpdate(newTarget) => if policy.targetTenant != newTarget then Some(policy.targetTenant) else None
    case BeforeDelete => Some(policy.targetTenant)
  }

  /** `validate_network_rbac_policy_change` on a policy about network `net`. */
  function ValidateNetworkRbacPolicyChange(event: PolicyEvent, objectType: string, policy: RbacEntry,
                                           caller: Caller, net: Network,
                                           entries: seq<RbacEntry>, ports: seq<Port>): (r: Outcome<Error>)
    requires net.id == policy.objectId
    ensures objectType != "network" || policy.action != AccessAsShared ==> r.Pass?
    ensures objectType == "network" && policy.action == AccessAsShared && !event.BeforeDelete?
            && !caller.isAdmin && net.tenantId != caller.tenantId ==>
              r == Fail(InvalidInput(NotNetworkOwner))
    ensures r.Fail? && r.error != InvalidInput(NotNetworkOwner) ==>
              var t := TenantLosingAccess(event, policy);
              t.Some? && EnsureNoTenantPortsOnNetwork(net.id, net.tenantId, t.value, entries, ports) == r
    ensures event.BeforeCreate? && (caller.isAdmin || net.tenantId == caller.tenantId) ==> r.Pass?
    ensures objectType == "network" && policy.action == AccessAsShared
            && (event.BeforeDelete? || caller.isAdmin || net.tenantId == caller.tenantId) ==>
              var t := TenantLosingAccess(event, policy);
              if t.Some? && t.value != "" then
                r == EnsureNoTenantPortsOnNetwork(net.id, net.tenantId, t.value, entries, ports)
              else
                r.Pass?
  {
    if objectType != "network" || policy.action != AccessAsShared then
      Pass
    else if !event.BeforeDelete? && !caller.isAdmin && net.tenantId != caller.tenantId then
      Fail(InvalidInput(NotNetworkOwner))
    else
      match TenantLosingAccess(event, policy)
      case Some(t) =>
        if t != "" then EnsureNoTenantPortsOnNetwork(net.id, net.tenantId, t, entries, ports) else Pass
      case None => Pass
  }

  /** A deletion, or an update that retargets a grant, which the veto lets
      through strands no port that had access, even with every grant to the
      tenant losing access withdrawn. */
  lemma PolicyWithdrawalStrandsNoPort(event: PolicyEvent, objectType: string, policy: RbacEntry, caller: Caller,
                                      net: Network, entries: seq<RbacEntry>, ports: seq<Port>)
    requires net.id == policy.objectId && objectType == "network" && policy.action == AccessAsShared
    requires TenantLosingAccess(event, policy).Some? && policy.targetTenant != ""
    requires PortsReachable(entries, net.id, net.tenantId, ports)
    requires ValidateNetworkRbacPolicyChange(event, objectType, policy, caller, net, entries, ports).Pass?
    ensures PortsReachable(Withdraw(entries, net.id, policy.targetTenant), net.id, net.tenantId, ports)
  {
    PassedWithdrawalStrandsNoPort(net.id, net.tenantId, policy.targetTenant, entries, ports);
  }

  /** An authorised deletion or retargeting of a grant to a tenant other than
      the owner is refused exactly when withdrawing that tenant's grants
      would strand a port. */
  lemma PolicyWithdrawalRefusedIffStranded(event: PolicyEvent, objectType: string, policy: RbacEntry, caller: Caller,
                                           net: Network, entries: seq<RbacEntry>, ports: seq<Port>)
    requires net.id == policy.objectId && objectType == "network" && policy.action == AccessAsShared
    requires TenantLosingAccess(event, policy).Some?
    requires policy.targetTenant != "" && policy.targetTenant != net.tenantId
    requires event.BeforeDelete? || caller.isAdmin || net.tenantId == caller.tenantId
    requires PortsReachable(entries, net.id, net.tenantId, ports)
    ensures ValidateNetworkRbacPolicyChange(event, objectType, policy, caller, net, entries, ports).Fail? <==>
            !PortsReachable(Withdraw(entries, net.id, policy.targetTenant), net.id, net.tenantId, ports)
  {
    WithdrawalRefusedIffPortStranded(net.id, net.tenantId, policy.targetTenant, entries, ports);
  }

  // ---------------------------------------------------------------------
  // update_network: the `shared` flag

  /** The tenants that would lose the network if it stopped being shared:
      owners of its non-service ports and of its subnets. */
  function DependentTenants(networkId: Id, ports: seq<Port>, subnets: seq<Subnet>): (r: set<Id>)
    ensures forall t :: t in r <==>
              (exists p | p in ports :: OnNetwork(p, networkId) && !StartsWith(p.deviceOwner, DeviceOwnerNetworkPrefix)
                                      && p.tenantId == t)
              || (exists s | s in subnets :: s.networkId == networkId && s.tenantId == t)
  {
    (set p | p in ports && OnNetwork(p, networkId) && !StartsWith(p.deviceOwner, DeviceOwnerNetworkPrefix) :: p.tenantId)
    + (set s | s in subnets && s.networkId == networkId :: s.tenantId)
  }

  /** `_validate_shared_update`: only turning sharing off is checked, and it
      is refused when several tenants, or one tenant other than the owner,
      depend on the network. */
  function ValidateSharedUpdate(net: Network, currentShared: bool, updatedShared: bool,
                                ports: seq<Port>, subnets: seq<Subnet>): (r: Outcome<Error>)
    ensures r.Fail? ==> r.error == InvalidSharedSetting(net.name)
    ensures updatedShared || !currentShared ==> r.Pass?
  {
    if updatedShared == currentShared || updatedShared then
      Pass
    else
      var tenants := DependentTenants(net.id, ports, subnets);
      // with one element, `tenant_ids.pop() != owner` is `tenant_ids != {owner}`
      if |tenants| > 1 || (|tenants| == 1 && tenants != {net.tenantId}) then
        Fail(InvalidSharedSetting(net.name))
      else
        Pass
  }

  /** Unsharing is refused exactly when a tenant other than the owner
      depends on the network. */
  lemma {:induction false} UnshareRefusedIffForeignTenant(net: Network, ports: seq<Port>, subnets: seq<Subnet>)
    ensures ValidateSharedUpdate(net, true, false, ports, subnets).Fail? <==>
            !(DependentTenants(net.id, ports, subnets) <= {net.tenantId})
  {
    var tenants := DependentTenants(net.id, ports, subnets);
    if tenants <= {net.tenantId} {
      SubsetOfSingleton(tenants, net.tenantId);
    } else {
      var t :| t in tenants && t != net.tenantId;
      if |tenants| <= 1 {
        assert tenants == {t} by {
          SubsetOfSingleton(tenants, t);
        }
      }
    }
  }

  lemma SubsetOfSingleton(s: set<Id>, x: Id)
    ensures s <= {x} <==> s == {} || s == {x}
    ensures s == {} || s == {x} ==> |s| <= 1
    ensures |s| <= 1 && x in s ==> s == {x}
  {
    if |s| <= 1 && x in s {
      assert |s - {x}| == |s| - 1;
    }
  }

  /** The first `access_as_shared` grant to every tenant, if any. */
  function WildcardEntry(entries: seq<RbacEntry>): (r: Option<nat>)
    ensures r.Some? ==> r.value < |entries| && entries[r.value].action == AccessAsShared
                        && entries[r.value].targetTenant == Wildcard
    ensures r.None? <==> forall i | 0 <= i < |entries| ::
              !(entries[i].action == AccessAsShared && entries[i].targetTenant == Wildcard)
  {
    if |entries| == 0 then None
    else if entries[0].action == AccessAsShared && entries[0].targetTenant == Wildcard then Some(0)
    else
      var r := WildcardEntry(entries[1..]);
      assert forall i | 1 <= i < |entries| :: entries[i] == entries[1..][i - 1];
      if r.Some? then Some(r.value + 1) else None
  }

  /** The network is shared: it carries a wildcard grant. */
  predicate Shared(entries: seq<RbacEntry>) {
    exists i | 0 <= i < |entries| :: entries[i].action == AccessAsShared && entries[i].targetTenant == Wildcard
  }

  /** At most one wildcard grant, as the RBAC table's uniqueness ensures. */
  predicate OneWildcard(entries: seq<RbacEntry>) {
    forall i, j | 0 <= i < j < |entries| ::
      !(entries[i].action == AccessAsShared && entries[i].targetTenant == Wildcard
        && entries[j].action == AccessAsShared && entries[j].targetTenant == Wildcard)
  }

  /** The `shared` handling of `update_network`: `entries` are the network's
      RBAC entries, `requested` the request's `shared` value when present.
      Returns the network's entries afterwards. */
  function UpdateNetworkShared(net: Network, entries: seq<RbacEntry>, requested: Option<bool>,
                               ports: seq<Port>, subnets: seq<Subnet>): (r: Result<seq<RbacEntry>, Error>)
    ensures requested.None? ==> r == Success(entries)
    ensures r.Failure? <==> requested == Some(false) && Shared(entries)
                            && !(DependentTenants(net.id, ports, subnets) <= {net.tenantId})
    ensures r.Failure? ==> r.error == InvalidSharedSetting(net.name)
    ensures r.Success? ==> forall e: RbacEntry | !(e.action == AccessAsShared && e.targetTenant == Wildcard) ::
                             e in r.value <==> e in entries
    ensures r.Success? && requested == Some(true) && !Shared(entries) ==>
              r.value == entries + [RbacEntry(net.id, AccessAsShared, Wildcard, net.tenantId)]
    ensures requested.Some? && requested.value == Shared(entries) ==> r == Success(entries)
  {
    if requested.None? then
      Success(entries)
    else
      var entry := WildcardEntry(entries);
      var v := ValidateSharedUpdate(net, entry.Some?, requested.value, ports, subnets);
      UnshareRefusedIffForeignTenant(net, ports, subnets);
      if v.Fail? then
        Failure(v.error)
      else if requested.value && entry.None? then
        Success(entries + [RbacEntry(net.id, AccessAsShared, Wildcard, net.tenantId)])
      else if !requested.value && entry.Some? then
        RemoveAtKeepsOthers(entries, entry.value);
        Success(entries[..entry.value] + entries[entry.value + 1..])
      else
        Success(entries)
  }

  /** Dropping the element at `k` keeps every value other than `s[k]`. */
  lemma RemoveAtKeepsOthers<T>(s: seq<T>, k: nat)
    requires k < |s|
    ensures forall x | x != s[k] :: x in s[..k] + s[k + 1..] <==> x in s
  {
    forall x | x != s[k] && x in s
      ensures x in s[..k] + s[k + 1..]
    {
      var i :| 0 <= i < |s| && s[i] == x;
      if i < k {
        assert (s[..k] + s[k + 1..])[i] == x;
      } else {
        assert (s[..k] + s[k + 1..])[i - 1] == x;
      }
    }
  }

  /** After a successful update the network is shared exactly as requested,
      there is still at most one wildcard grant, and every other grant is
      untouched. */
  lemma UpdateSharedTakesEffect(net: Network, entries: seq<RbacEntry>, requested: bool,
                                ports: seq<Port>, subnets: seq<Subnet>)
    requires OneWildcard(entries)
    requires UpdateNetworkShared(net, entries, Some(requested), ports, subnets).Success?
    ensures var after := UpdateNetworkShared(net, entries, Some(requested), ports, subnets).value;
            && Shared(after) == requested && OneWildcard(after)
            && forall e: RbacEntry | !(e.action == AccessAsShared && e.targetTenant == Wildcard) :: e in after <==> e in entries
  {
    var after := UpdateNetworkShared(net, entries, Some(requested), ports, subnets).value;
    var entry := WildcardEntry(entries);
    if requested && entry.None? {
      assert after[|entries|].action == AccessAsShared && after[|entries|].targetTenant == Wildcard;
    } else if !requested && entry.Some? {
      var k := entry.value;
      forall i | 0 <= i < |after|
        ensures !(after[i].action == AccessAsShared && after[i].targetTenant == Wildcard)
      {
        if i < k {
          assert after[i] == entries[i];
        } else {
          assert after[i] == entries[i + 1];
        }
      }
    } else if requested {
      assert entries[entry.value].action == AccessAsShared;
    }
  }

  // ---------------------------------------------------------------------
  // delete_network

  /** `delete_network`: ports with an auto-delete owner go first; any other
      port left on the network refuses the deletion. Returns the ports that
      remain. */
  function DeleteNetworkPorts(networkId: Id, ports: seq<Port>): (r: Result<seq<Port>, Error>)
    ensures r.Failure? <==> exists p | p in ports :: OnNetwork(p, networkId) && p.deviceOwner !in AutoDeletePortOwners
    ensures r.Failure? ==> r.error == NetworkInUse(networkId)
    ensures r.Success? ==> forall p :: p in r.value <==> p in ports && !OnNetwork(p, networkId)
  {
    var remaining := DropAutoDeleted(networkId, ports);
    if exists p | p in remaining :: OnNetwork(p, networkId) then
      Failure(NetworkInUse(networkId))
    else
      Success(remaining)
  }

  function DropAutoDeleted(networkId: Id, ports: seq<Port>): (r: seq<Port>)
    ensures forall p :: p in r <==> p in ports && !(OnNetwork(p, networkId) && p.deviceOwner in AutoDeletePortOwners)
  {
    if |ports| == 0 then []
    else
      assert forall p :: p in ports <==> p == ports[0] || p in ports[1..];
      var p := ports[0];
      (if OnNetwork(p, networkId) && p.deviceOwner in AutoDeletePortOwners then [] else [p])
        + DropAutoDeleted(networkId, ports[1..])
  }
}

=== FILE: subnet_lifecycle.dfy ===
/** Subnet creation, update and deletion as the plugin decides them: which
    pool a request draws from, which checks run on which path, how a
    prefix-delegated subnet's ports are rewritten when its prefix arrives,
    and which IP allocations block a deletion. */
module SubnetLifecycle {
  import opened Wrappers
  import opened AddressMath
  import opened Entities
  import opened SubnetValidator
  import opened SubnetPools

  /** A pool id in a Python truth test: present and non-empty. */
  predicate PoolNamed(id: Option<Id>) {
    id.Some? && id.value != ""
  }

  // ---------------------------------------------------------------------
  // _get_subnetpool_id

  /** The family a default-pool lookup uses: the cidr's, else `ip_version`. */
  function RequestFamily(req: SubnetRequest): (r: Option<IpVersion>)
    ensures req.cidr.Some? ==> r == Some(req.cidr.value.version)
    ensures req.cidr.None? ==> r == req.ipVersion
  {
    if req.cidr.Some? then Some(req.cidr.value.version) else req.ipVersion
  }

  /** `_get_subnetpool_id`: the pool a create request draws from, if any. */
  function GetSubnetpoolId(env: Env, pools: seq<SubnetPool>, req: SubnetRequest): (r: Result<Option<Id>, Error>)
    ensures Truthy(req.useDefaultSubnetpool) && PoolNamed(req.subnetpoolId) ==>
              r == Failure(BadRequest(PoolAndDefaultTogether))
    ensures !Truthy(req.useDefaultSubnetpool) && PoolNamed(req.subnetpoolId) ==> r == Success(req.subnetpoolId)
    ensures !Truthy(req.useDefaultSubnetpool) && !PoolNamed(req.subnetpoolId) ==> r == Success(None)
    ensures Truthy(req.useDefaultSubnetpool) && !PoolNamed(req.subnetpoolId) ==>
              match RequestFamily(req)
              case None => r == Failure(BadRequest(IpVersionMissing))
              case Some(v) =>
                if v == V6 && env.ipv6PdEnabled then r == Success(Some(Ipv6PdPoolId))
                else if forall p | p in pools :: !IsDefaultFor(p, v) then r == Failure(BadRequest(NoDefaultSubnetpool(v)))
                else r == Success(Some(DefaultPool(pools, v).value.id))
  {
    var useDefault := Truthy(req.useDefaultSubnetpool);
    if useDefault && PoolNamed(req.subnetpoolId) then
      Failure(BadRequest(PoolAndDefaultTogether))
    else if PoolNamed(req.subnetpoolId) then
      Success(req.subnetpoolId)
    else if !useDefault then
      Success(None)
    else
      match RequestFamily(req)
      case None => Failure(BadRequest(IpVersionMissing))
      case Some(v) =>
        if v == V6 && env.ipv6PdEnabled then
          Success(Some(Ipv6PdPoolId))
        else
          match DefaultPool(pools, v)
          case Some(p) => Success(Some(p.id))
          case None => Failure(BadRequest(NoDefaultSubnetpool(v)))
  }

  // ---------------------------------------------------------------------
  // create_subnet

  /** The spec `_validate_subnet` sees on create. */
  function CreateSpec(req: SubnetRequest, cidr: Prefix): (s: SubnetSpec)
    requires req.ipVersion.Some?
    ensures s.ipVersion == req.ipVersion.value && s.cidr == cidr
    ensures s.ipv6RaMode == req.ipv6RaMode && s.ipv6AddressMode == req.ipv6AddressMode
  {
    SubnetSpec(req.ipVersion.value, cidr, req.enableDhcp, req.gatewayIp, req.dnsNameservers, req.hostRoutes,
               req.ipv6RaMode, req.ipv6AddressMode, req.subnetpoolId)
  }

  /** What `_create_subnet` is handed: the cidr (canonical, provisional, or
      none when a pool will choose one), the requested prefix length, and the pool. */
  datatype CreatePlan = CreatePlan(cidr: Option<Prefix>, prefixlen: Option<nat>, subnetpoolId: Option<Id>)

  /** The checks of `create_subnet` and the arguments it passes on. */
  function CreateSubnet(env: Env, pools: seq<SubnetPool>, req: SubnetRequest): (r: Result<CreatePlan, Error>)
    requires req.ipVersion.Some?
    ensures req.cidr.Some? && req.prefixlen.Some? ==> r == Failure(BadRequest(CidrAndPrefixlenTogether))
    ensures r.Success? ==> r.value.prefixlen == req.prefixlen
    ensures r.Success? && req.cidr.Some? ==> r.value.cidr == Some(Canonical(req.cidr.value))
    ensures r.Success? && r.value.cidr.Some? ==> Aligned(r.value.cidr.value)
    ensures r.Success? && r.value.subnetpoolId == Some(Ipv6PdPoolId) ==>
              && req.cidr.None? && r.value.cidr == Some(ProvisionalIpv6PdPrefix)
              && ValidateSubnetForPd(req.ipVersion, req.ipv6RaMode, req.ipv6AddressMode).Pass?
    ensures r.Success? && !PoolNamed(r.value.subnetpoolId) ==>
              && r.value.cidr.Some?
              && SubnetRulesHold(env, CreateSpec(req, r.value.cidr.value), None, [], {})
    ensures !(req.cidr.Some? && req.prefixlen.Some?) ==>
              var cidr := if req.cidr.Some? then Some(Canonical(req.cidr.value)) else None;
              match GetSubnetpoolId(env, pools, req)
              case Failure(e) => r == Failure(e)
              case Success(poolId) =>
                && (!PoolNamed(poolId) && req.cidr.None? ==> r == Failure(BadRequest(NoPoolNoCidr)))
                && (PoolNamed(poolId) && poolId != Some(Ipv6PdPoolId) ==>
                      r == Success(CreatePlan(cidr, req.prefixlen, poolId)))
                && (poolId == Some(Ipv6PdPoolId) && req.cidr.None? ==>
                      (r.Success? <==> ValidateSubnetForPd(req.ipVersion, req.ipv6RaMode, req.ipv6AddressMode).Pass?)
                      && (r.Failure? ==>
                            Fail(r.error) == ValidateSubnetForPd(req.ipVersion, req.ipv6RaMode, req.ipv6AddressMode))
                      && (r.Success? ==> r.value == CreatePlan(Some(ProvisionalIpv6PdPrefix), req.prefixlen, poolId)))
                && ((!PoolNamed(poolId) || poolId == Some(Ipv6PdPoolId)) && req.cidr.Some? ==>
                      (r.Success? <==> SubnetRulesHold(env, CreateSpec(req, cidr.value), None, [], {}))
                      && (r.Failure? ==> Fail(r.error) == ValidateSubnet(env, CreateSpec(req, cidr.value), None, [], {}))
                      && (r.Success? ==>
                            r.value == CreatePlan(cidr, req.prefixlen, if PoolNamed(poolId) then None else poolId)))
  {
    var hasCidr := req.cidr.Some?;
    if hasCidr && req.prefixlen.Some? then
      Failure(BadRequest(CidrAndPrefixlenTogether))
    else
      var cidr := if hasCidr then Some(Canonical(req.cidr.value)) else None;
      assert RequestFamily(req.(cidr := cidr)) == RequestFamily(req);
      var poolId :- GetSubnetpoolId(env, pools, req.(cidr := cidr));
      if !PoolNamed(poolId) && !hasCidr then
        Failure(BadRequest(NoPoolNoCidr))
      else if PoolNamed(poolId) then
        if poolId == Some(Ipv6PdPoolId) then
          if hasCidr then
            // a specific cidr with prefix delegation proceeds as a plain subnet
            var v := ValidateSubnet(env, CreateSpec(req, cidr.value), None, [], {});
            if v.Fail? then Failure(v.error) else Success(CreatePlan(cidr, req.prefixlen, None))
          else
            var v := ValidateSubnetForPd(req.ipVersion, req.ipv6RaMode, req.ipv6AddressMode);
            if v.Fail? then Failure(v.error)
            else Success(CreatePlan(Some(ProvisionalIpv6PdPrefix), req.prefixlen, poolId))
        else
          Success(CreatePlan(cidr, req.prefixlen, poolId))
      else
        var v := ValidateSubnet(env, CreateSpec(req, cidr.value), None, [], {});
        if v.Fail? then Failure(v.error) else Success(CreatePlan(cidr, req.prefixlen, poolId))
  }

  /** Writing a cidr with host bits set is the same request as writing it
      canonically. */
  lemma CreateIgnoresHostBits(env: Env, pools: seq<SubnetPool>, req: SubnetRequest)
    requires req.ipVersion.Some? && req.cidr.Some?
    ensures CreateSubnet(env, pools, req) == CreateSubnet(env, pools, req.(cidr := Some(Canonical(req.cidr.value))))
  {
    var c := req.cidr.value;
    var c' := Canonical(c);
    assert Canonical(c') == c' by {
      DivMulCancel(Index(c'), Size(c'));
    }
  }

  /** A subnet created without a pool is valid by every rule of `_validate_subnet`,
      whichever path led there. */
  lemma PoolLessSubnetsAreValidated(env: Env, pools: seq<SubnetPool>, req: SubnetRequest)
    requires req.ipVersion.Some?
    requires !PoolNamed(req.subnetpoolId) && !Truthy(req.useDefaultSubnetpool)
    ensures var r := CreateSubnet(env, pools, req);
            && (req.cidr.None? ==> r.Failure?)
            && (req.cidr.Some? && req.prefixlen.None? ==>
                  (r.Success? <==> SubnetRulesHold(env, CreateSpec(req, Canonical(req.cidr.value)), None, [], {})))
  {
  }

  // ---------------------------------------------------------------------
  // update_subnet

  /** The spec `_update_subnet_precommit` validates: family, cidr and pool
      come from the stored subnet, the rest from the request. */
  function UpdateSpec(db: Subnet, req: SubnetRequest): (s: SubnetSpec)
    ensures s.ipVersion == db.ipVersion && s.cidr == db.cidr && s.subnetpoolId == db.subnetpoolId
    ensures s.enableDhcp == req.enableDhcp && s.gatewayIp == req.gatewayIp
  {
    SubnetSpec(db.ipVersion, db.cidr, req.enableDhcp, req.gatewayIp, req.dnsNameservers, req.hostRoutes,
               req.ipv6RaMode, req.ipv6AddressMode, db.subnetpoolId)
  }

  /** `utils.get_first_host_ip`: the address after the network address. */
  function FirstHost(c: Prefix): (a: Address)
    ensures a.version == c.version && a.value == AddressMath.Network(c) + 1
  {
    Address(c.version, AddressMath.Network(c) + 1)
  }

  /** The cidr and gateway the precommit step settles on, and whether the
      gateway changed (which triggers the gateway notifications). */
  datatype PrecommitPlan = PrecommitPlan(cidr: Prefix, gatewayIp: Option<Address>, gatewayChanged: bool)

  /** The decisions of `_update_subnet_precommit`: validate against the
      stored subnet; a prefix-delegated subnet handed a new cidr takes it and
      moves its gateway to the first host; the gateway defaults to the stored one. */
  function UpdateSubnetPrecommit(env: Env, db: Subnet, req: SubnetRequest,
                                 allocations: seq<Allocation>, routerPorts: set<Id>): (r: Result<PrecommitPlan, Error>)
    ensures r.Failure? <==> !SubnetRulesHold(env, UpdateSpec(db, req), Some(db), allocations, routerPorts)
    ensures r.Failure? ==> Fail(r.error) == ValidateSubnet(env, UpdateSpec(db, req), Some(db), allocations, routerPorts)
    ensures r.Success? && req.cidr.Some? && env.isIpv6PdEnabled(db.subnetpoolId) ==>
              r.value.cidr == req.cidr.value && r.value.gatewayIp == Some(FirstHost(req.cidr.value))
    ensures r.Success? && !(req.cidr.Some? && env.isIpv6PdEnabled(db.subnetpoolId)) ==>
              && r.value.cidr == db.cidr
              && (req.gatewayIp.Some? ==> r.value.gatewayIp == req.gatewayIp)
              && (req.gatewayIp.None? ==> r.value.gatewayIp == db.gatewayIp)
    ensures r.Success? ==> (r.value.gatewayChanged <==> r.value.gatewayIp != db.gatewayIp)
  {
    var v := ValidateSubnet(env, UpdateSpec(db, req), Some(db), allocations, routerPorts);
    if v.Fail? then
      Failure(v.error)
    else
      var pdRenumber := req.cidr.Some? && env.isIpv6PdEnabled(db.subnetpoolId);
      var cidr := if pdRenumber then req.cidr.value else db.cidr;
      var gateway := if pdRenumber then Some(FirstHost(req.cidr.value))
                     else if req.gatewayIp.Some? then req.gatewayIp else db.gatewayIp;
      Success(PrecommitPlan(cidr, gateway, gateway != db.gatewayIp))
  }

  /** Outside prefix delegation, a gateway the update applies has the
      subnet's family and is valid within its stored cidr. */
  lemma UpdatedGatewayValidated(env: Env, db: Subnet, req: SubnetRequest,
                                allocations: seq<Allocation>, routerPorts: set<Id>)
    requires !(req.cidr.Some? && env.isIpv6PdEnabled(db.subnetpoolId))
    requires UpdateSubnetPrecommit(env, db, req, allocations, routerPorts).Success?
    requires req.gatewayIp.Some?
    ensures var g := UpdateSubnetPrecommit(env, db, req, allocations, routerPorts).value.gatewayIp;
            g.Some? && g.value.version == db.ipVersion && !env.gatewayInvalidInSubnet(db.cidr, g.value)
  {
  }

  /** Updating the gateway of a subnet not under prefix delegation, while
      its stored gateway is bound to a router port, is refused with
      GatewayIpInUse naming the stored gateway. */
  lemma UpdateRefusesGatewayInUse(env: Env, db: Subnet, req: SubnetRequest,
                                  allocations: seq<Allocation>, routerPorts: set<Id>)
    requires CidrRule(UpdateSpec(db, req)) && DhcpRule(UpdateSpec(db, req), Some(db))
    requires req.gatewayIp.Some? && req.gatewayIp.value.version == db.ipVersion
    requires !env.gatewayInvalidInSubnet(db.cidr, req.gatewayIp.value)
    requires !env.isIpv6PdEnabled(db.subnetpoolId)
    requires exists a | a in allocations :: BindsGateway(a, routerPorts, db.id, db.gatewayIp)
    ensures var r := UpdateSubnetPrecommit(env, db, req, allocations, routerPorts);
            r.Failure? && r.error.GatewayIpInUse? && Some(r.error.ipAddress) == db.gatewayIp
  {
    GatewayInUseReported(env, UpdateSpec(db, req), db, allocations, routerPorts);
  }

  /** When a delegated prefix arrives, the new gateway lies inside it. */
  lemma RenumberedGatewayInsidePrefix(env: Env, db: Subnet, req: SubnetRequest,
                                      allocations: seq<Allocation>, routerPorts: set<Id>)
    requires req.cidr.Some? && env.isIpv6PdEnabled(db.subnetpoolId)
    requires req.cidr.value.len < Width(req.cidr.value.version)
    requires UpdateSubnetPrecommit(env, db, req, allocations, routerPorts).Success?
    ensures var plan := UpdateSubnetPrecommit(env, db, req, allocations, routerPorts).value;
            plan.gatewayIp.Some? && InBlock(plan.cidr, plan.gatewayIp.value)
            && plan.gatewayIp.value.value != AddressMath.Network(plan.cidr)
  {
    var c := req.cidr.value;
    assert Size(c) == 2 * Pow2(HostBits(c) - 1);
  }

  // ---------------------------------------------------------------------
  // _update_subnet_postcommit

  predicate OnSubnet(ip: FixedIp, subnetId: Id) {
    ip.subnetId == subnetId
  }

  predicate HasIpOn(p: Port, subnetId: Id) {
    exists i | 0 <= i < |p.fixedIps| :: OnSubnet(p.fixedIps[i], subnetId)
  }

  /** One port's `fixed_ips` after renumbering: on the subnet, a router
      interface gets the new gateway and any other port loses its address
      so that IPAM assigns a fresh one. */
  function RewriteFixedIps(ips: seq<FixedIp>, subnetId: Id, isRouter: bool, gateway: Option<Address>)
    : (r: seq<FixedIp>)
    ensures |r| == |ips|
    ensures forall i | 0 <= i < |ips| :: r[i].subnetId == ips[i].subnetId
    ensures forall i | 0 <= i < |ips| && !OnSubnet(ips[i], subnetId) :: r[i] == ips[i]
    ensures forall i | 0 <= i < |ips| && OnSubnet(ips[i], subnetId) ::
              r[i].ipAddress == (if isRouter then gateway else None)
  {
    if |ips| == 0 then []
    else
      var ip := ips[0];
      var ip' := if !OnSubnet(ip, subnetId) then ip
                 else if isRouter then ip.(ipAddress := gateway)
                 else ip.(ipAddress := None);
      [ip'] + RewriteFixedIps(ips[1..], subnetId, isRouter, gateway)
  }

  /** Renumbering is idempotent: rewriting an already rewritten port changes nothing. */
  lemma RewriteIdempotent(ips: seq<FixedIp>, subnetId: Id, isRouter: bool, gateway: Option<Address>)
    ensures var once := RewriteFixedIps(ips, subnetId, isRouter, gateway);
            RewriteFixedIps(once, subnetId, isRouter, gateway) == once
  {
    var once := RewriteFixedIps(ips, subnetId, isRouter, gateway);
    var twice := RewriteFixedIps(once, subnetId, isRouter, gateway);
    assert |twice| == |once|;
    forall i | 0 <= i < |once| ensures twice[i] == once[i] {
    }
  }

  function RewritePort(p: Port, subnetId: Id, gateway: Option<Address>): (r: Port)
    ensures r == p.(fixedIps := r.fixedIps)
    ensures r.fixedIps == RewriteFixedIps(p.fixedIps, subnetId, p.deviceOwner in RouterInterfaceOwners, gateway)
  {
    p.(fixedIps := RewriteFixedIps(p.fixedIps, subnetId, p.deviceOwner in RouterInterfaceOwners, gateway))
  }

  /** The routers to notify: a router interface's device id once per address
      it holds on the subnet. */
  function RoutersOf(ports: seq<Port>, subnetId: Id): (r: seq<Id>)
    ensures forall d :: d in r <==>
              exists p | p in ports :: p.deviceOwner in RouterInterfaceOwners && HasIpOn(p, subnetId) && p.deviceId == d
  {
    if |ports| == 0 then []
    else
      var p := ports[0];
      var n := CountOn(p.fixedIps, subnetId);
      var mine := if p.deviceOwner in RouterInterfaceOwners then seq(n, _ => p.deviceId) else [];
      assert forall q :: q in ports <==> q == p || q in ports[1..];
      assert forall d :: d in mine <==> p.deviceOwner in RouterInterfaceOwners && n > 0 && d == p.deviceId by {
        if p.deviceOwner in RouterInterfaceOwners && n > 0 {
          assert mine[0] == p.deviceId;
        }
      }
      mine + RoutersOf(ports[1..], subnetId)
  }

  function CountOn(ips: seq<FixedIp>, subnetId: Id): (n: nat)
    ensures n > 0 <==> exists i | 0 <= i < |ips| :: OnSubnet(ips[i], subnetId)
    ensures n <= |ips|
  {
    if |ips| == 0 then 0
    else
      assert forall i | 1 <= i < |ips| :: ips[i] == ips[1..][i - 1];
      (if OnSubnet(ips[0], subnetId) then 1 else 0) + CountOn(ips[1..], subnetId)
  }

  function PortsOn(ports: seq<Port>, subnetId: Id): (r: seq<Port>)
    ensures forall p :: p in r <==> p in ports && HasIpOn(p, subnetId)
  {
    if |ports| == 0 then []
    else
      assert forall q :: q in ports <==> q == ports[0] || q in ports[1..];
      (if HasIpOn(ports[0], subnetId) then [ports[0]] else []) + PortsOn(ports[1..], subnetId)
  }

  function RewritePorts(ports: seq<Port>, subnetId: Id, gateway: Option<Address>): (r: seq<Port>)
    ensures forall q :: q in r <==> exists p | p in ports :: q == RewritePort(p, subnetId, gateway)
  {
    if |ports| == 0 then []
    else
      assert forall q :: q in ports <==> q == ports[0] || q in ports[1..];
      [RewritePort(ports[0], subnetId, gateway)] + RewritePorts(ports[1..], subnetId, gateway)
  }

  /** The port updates, router notifications and gateway notification that
      `_update_subnet_postcommit` issues. */
  datatype PostcommitPlan = PostcommitPlan(portUpdates: seq<Port>, routers: seq<Id>, notifyGateway: bool)

  function UpdateSubnetPostcommit(env: Env, orig: Subnet, result: Subnet, ports: seq<Port>): (r: PostcommitPlan)
    ensures r.notifyGateway <==> orig.gatewayIp != result.gatewayIp
    ensures !(result.cidr != orig.cidr && env.isIpv6PdEnabled(result.subnetpoolId)) ==>
              r.portUpdates == [] && r.routers == []
    ensures result.cidr != orig.cidr && env.isIpv6PdEnabled(result.subnetpoolId) ==>
              && (forall q :: q in r.portUpdates <==>
                    exists p | p in ports :: HasIpOn(p, result.id) && q == RewritePort(p, result.id, result.gatewayIp))
              && (forall d :: d in r.routers <==>
                    exists p | p in ports :: p.deviceOwner in RouterInterfaceOwners && HasIpOn(p, result.id) && p.deviceId == d)
  {
    var needed := result.cidr != orig.cidr && env.isIpv6PdEnabled(result.subnetpoolId);
    var affected := if needed then PortsOn(ports, result.id) else [];
    PostcommitPlan(RewritePorts(affected, result.id, result.gatewayIp), RoutersOf(affected, result.id), orig.gatewayIp != result.gatewayIp)
  }

  /** After renumbering, every address the subnet's ports hold on it is the
      new gateway, held by a router interface. */
  lemma RenumberedPortsHoldOnlyGateway(env: Env, orig: Subnet, result: Subnet, ports: seq<Port>)
    requires result.cidr != orig.cidr && env.isIpv6PdEnabled(result.subnetpoolId)
    ensures forall q | q in UpdateSubnetPostcommit(env, orig, result, ports).portUpdates ::
              forall i | 0 <= i < |q.fixedIps| && OnSubnet(q.fixedIps[i], result.id) && q.fixedIps[i].ipAddress.Some? ::
                q.deviceOwner in RouterInterfaceOwners && q.fixedIps[i].ipAddress == result.gatewayIp
  {
    forall q | q in UpdateSubnetPostcommit(env, orig, result, ports).portUpdates
      ensures forall i | 0 <= i < |q.fixedIps| && OnSubnet(q.fixedIps[i], result.id) && q.fixedIps[i].ipAddress.Some? ::
                q.deviceOwner in RouterInterfaceOwners && q.fixedIps[i].ipAddress == result.gatewayIp
    {
      var p :| p in ports && HasIpOn(p, result.id) && q == RewritePort(p, result.id, result.gatewayIp);
    }
  }

  // ---------------------------------------------------------------------
  // delete_subnet

  predicate AllocOn(a: Allocation, subnetId: Id) {
    a.subnetId == subnetId
  }

  function DropAllocs(allocations: seq<Allocation>, drop: Allocation -> bool): (r: seq<Allocation>)
    ensures forall a :: a in r <==> a in allocations && !drop(a)
  {
    if |allocations| == 0 then []
    else
      assert forall a :: a in allocations <==> a == allocations[0] || a in allocations[1..];
      (if drop(allocations[0]) then [] else [allocations[0]]) + DropAllocs(allocations[1..], drop)
  }

  /** `delete_subnet`: `vetoed` is whether a before-delete subscriber refused
      (`_check_subnet_not_used`); `allocations` are all IP allocations joined
      with their ports. Returns the allocations that remain. */
  function DeleteSubnet(env: Env, subnet: Subnet, vetoed: bool, allocations: seq<Allocation>)
    : (r: Result<seq<Allocation>, Error>)
    ensures vetoed ==> r == Failure(SubnetInUse(subnet.id))
    ensures r.Failure? ==> r.error == SubnetInUse(subnet.id)
    ensures var auto := env.isAutoAddressSubnet(subnet.ipv6RaMode, subnet.ipv6AddressMode);
            r.Failure? <==>
              || vetoed
              || (auto && exists a | a in allocations :: AllocOn(a, subnet.id) && a.deviceOwner in RouterInterfaceOwners)
              || (!auto && exists a | a in allocations :: AllocOn(a, subnet.id) && a.deviceOwner !in AutoDeletePortOwners)
    ensures r.Success? ==> forall a :: a in r.value <==> a in allocations && !AllocOn(a, subnet.id)
  {
    if vetoed then
      Failure(SubnetInUse(subnet.id))
    else if env.isAutoAddressSubnet(subnet.ipv6RaMode, subnet.ipv6AddressMode) then
      if exists a | a in allocations :: AllocOn(a, subnet.id) && a.deviceOwner in RouterInterfaceOwners then
        Failure(SubnetInUse(subnet.id))
      else
        Success(DropAllocs(allocations, a => AllocOn(a, subnet.id)))
    else
      var remaining := DropAllocs(allocations, a => AllocOn(a, subnet.id) && a.deviceOwner in AutoDeletePortOwners);
      if exists a | a in remaining :: AllocOn(a, subnet.id) then
        Failure(SubnetInUse(subnet.id))
      else
        Success(remaining)
  }

  /** A subnet whose only users are DHCP ports, and which no subscriber
      vetoes, can always be deleted. */
  lemma DhcpOnlySubnetDeletable(env: Env, subnet: Subnet, allocations: seq<Allocation>)
    requires forall a | a in allocations && AllocOn(a, subnet.id) :: a.deviceOwner == DeviceOwnerDhcp
    ensures DeleteSubnet(env, subnet, false, allocations).Success?
  {
  }
}

=== FILE: subnet_validator.dfy ===
/** `_validate_subnet` and its helpers: an ordered rule engine over a subnet
    spec and, on update, the stored subnet. The first violated rule decides the
    error; `SubnetRulesHold` states all rules at once, and `ValidateSubnet`
    passes exactly when they hold. */
module SubnetValidator {
  import opened Wrappers
  import opened AddressMath
  import opened Entities

  // ---------------------------------------------------------------------
  // Ranges netaddr treats as multicast and loopback

  const Ipv4Multicast: Prefix := Prefix(V4, 0xE000_0000, 4)
  const Ipv6Multicast: Prefix := Prefix(V6, 0xFF00_0000_0000_0000_0000_0000_0000_0000, 8)
  const Ipv4Loopback: Prefix := Prefix(V4, 0x7F00_0000, 8)
  const Ipv6Loopback: Prefix := Prefix(V6, 1, 128)

  predicate IsMulticast(c: Prefix) {
    Contains(if c.version == V4 then Ipv4Multicast else Ipv6Multicast, c)
  }

  predicate IsLoopback(c: Prefix) {
    Contains(if c.version == V4 then Ipv4Loopback else Ipv6Loopback, c)
  }

  /** A Python truth test of an optional boolean. */
  predicate Truthy(b: Option<bool>) {
    b == Some(true)
  }

  predicate ModesSet(ra: Option<Ipv6Mode>, am: Option<Ipv6Mode>) {
    ra.Some? || am.Some?
  }

  /** DHCP goes from not enabled to enabled: on create, or on an update of a
      subnet whose DHCP was off. */
  predicate DhcpNewlyEnabled(s: SubnetSpec, cur: Option<Subnet>) {
    Truthy(s.enableDhcp) && !(cur.Some? && cur.value.enableDhcp)
  }

  predicate PrefixTooLongForDhcp(s: SubnetSpec) {
    (s.ipVersion == V4 && s.cidr.len > 30) || (s.ipVersion == V6 && s.cidr.len > 126)
  }

  /** The allocation that binds the stored gateway address to a router port, if any. */
  function RouterAllocationOf(allocations: seq<Allocation>, routerPorts: set<Id>, subnetId: Id,
                              gateway: Option<Address>): (r: Option<Allocation>)
    ensures r.Some? <==> exists a | a in allocations :: BindsGateway(a, routerPorts, subnetId, gateway)
    ensures r.Some? ==> r.value in allocations && BindsGateway(r.value, routerPorts, subnetId, gateway)
  {
    if |allocations| == 0 then
      None
    else if BindsGateway(allocations[0], routerPorts, subnetId, gateway) then
      Some(allocations[0])
    else
      RouterAllocationOf(allocations[1..], routerPorts, subnetId, gateway)
  }

  predicate BindsGateway(a: Allocation, routerPorts: set<Id>, subnetId: Id, gateway: Option<Address>) {
    a.subnetId == subnetId && gateway == Some(a.ipAddress) && a.portId in routerPorts
  }

  // ---------------------------------------------------------------------
  // The rules, stated declaratively

  predicate CidrRule(s: SubnetSpec) {
    s.cidr.version == s.ipVersion
  }

  predicate DhcpRule(s: SubnetSpec, cur: Option<Subnet>) {
    DhcpNewlyEnabled(s, cur) ==>
      !PrefixTooLongForDhcp(s) && !IsMulticast(s.cidr) && !IsLoopback(s.cidr)
  }

  predicate GatewayRule(env: Env, s: SubnetSpec, cur: Option<Subnet>,
                        allocations: seq<Allocation>, routerPorts: set<Id>) {
    s.gatewayIp.Some? ==>
      && s.gatewayIp.value.version == s.ipVersion
      && !env.gatewayInvalidInSubnet(s.cidr, s.gatewayIp.value)
      && (cur.Some? && !env.isIpv6PdEnabled(s.subnetpoolId) ==>
            forall a | a in allocations :: !BindsGateway(a, routerPorts, cur.value.id, cur.value.gatewayIp))
  }

  predicate DnsOk(v: IpVersion, d: Parsed<Address>) {
    d.Parsed? && d.value.version == v
  }

  predicate DnsRule(env: Env, s: SubnetSpec) {
    s.dnsNameservers.Some? ==>
      && |s.dnsNameservers.value| <= env.maxDnsNameservers
      && forall i | 0 <= i < |s.dnsNameservers.value| :: DnsOk(s.ipVersion, s.dnsNameservers.value[i])
  }

  predicate RouteOk(v: IpVersion, rt: HostRoute) {
    && rt.destination.Parsed? && rt.nexthop.Parsed?
    && rt.nexthop.value.version == v && rt.destination.value.version == v
  }

  predicate RouteRule(env: Env, s: SubnetSpec) {
    s.hostRoutes.Some? ==>
      && |s.hostRoutes.value| <= env.maxSubnetHostRoutes
      && forall i | 0 <= i < |s.hostRoutes.value| :: RouteOk(s.ipVersion, s.hostRoutes.value[i])
  }

  /** The error a bad nameserver raises: unparseable, else the wrong family. */
  function DnsError(d: Parsed<Address>): Error {
    if d.Unparseable? then InvalidInput(BadDnsAddress) else InvalidInput(IpVersionMismatch(DnsNameserverField))
  }

  /** The error a bad host route raises: an end that does not parse, else a
      next hop of the wrong family, else a destination of the wrong family. */
  function RouteError(v: IpVersion, rt: HostRoute): Error {
    if rt.destination.Unparseable? || rt.nexthop.Unparseable? then InvalidInput(BadHostRoute)
    else if rt.nexthop.value.version != v then InvalidInput(IpVersionMismatch(NexthopField))
    else InvalidInput(IpVersionMismatch(DestinationField))
  }

  /** `e` is the error of the first bad nameserver in `dns`. */
  predicate FirstBadDns(v: IpVersion, dns: seq<Parsed<Address>>, e: Error) {
    exists i | 0 <= i < |dns| ::
      && !DnsOk(v, dns[i]) && (forall j | 0 <= j < i :: DnsOk(v, dns[j]))
      && e == DnsError(dns[i])
  }

  /** `e` is the error of the first bad route in `routes`. */
  predicate FirstBadRoute(v: IpVersion, routes: seq<HostRoute>, e: Error) {
    exists i | 0 <= i < |routes| ::
      && !RouteOk(v, routes[i]) && (forall j | 0 <= j < i :: RouteOk(v, routes[j]))
      && e == RouteError(v, routes[i])
  }

  /** The first bad nameserver fixes the error: two readings cannot differ. */
  lemma FirstBadDnsUnique(v: IpVersion, dns: seq<Parsed<Address>>, e1: Error, e2: Error)
    requires FirstBadDns(v, dns, e1) && FirstBadDns(v, dns, e2)
    ensures e1 == e2
  {
    var i :| 0 <= i < |dns| && !DnsOk(v, dns[i]) && (forall j | 0 <= j < i :: DnsOk(v, dns[j])) && e1 == DnsError(dns[i]);
    var k :| 0 <= k < |dns| && !DnsOk(v, dns[k]) && (forall j | 0 <= j < k :: DnsOk(v, dns[j])) && e2 == DnsError(dns[k]);
    assert !(i < k) && !(k < i);
  }

  /** The first bad route fixes the error: two readings cannot differ. */
  lemma FirstBadRouteUnique(v: IpVersion, routes: seq<HostRoute>, e1: Error, e2: Error)
    requires FirstBadRoute(v, routes, e1) && FirstBadRoute(v, routes, e2)
    ensures e1 == e2
  {
    var i :| 0 <= i < |routes| && !RouteOk(v, routes[i]) && (forall j | 0 <= j < i :: RouteOk(v, routes[j]))
             && e1 == RouteError(v, routes[i]);
    var k :| 0 <= k < |routes| && !RouteOk(v, routes[k]) && (forall j | 0 <= j < k :: RouteOk(v, routes[j]))
             && e2 == RouteError(v, routes[k]);
    assert !(i < k) && !(k < i);
  }

  lemma FirstBadDnsCons(v: IpVersion, dns: seq<Parsed<Address>>, e: Error)
    requires |dns| > 0 && DnsOk(v, dns[0]) && FirstBadDns(v, dns[1..], e)
    ensures FirstBadDns(v, dns, e)
  {
    var i :| 0 <= i < |dns[1..]| && !DnsOk(v, dns[1..][i]) && (forall j | 0 <= j < i :: DnsOk(v, dns[1..][j]))
             && e == DnsError(dns[1..][i]);
    assert dns[i + 1] == dns[1..][i];
    forall j | 0 <= j < i + 1 ensures DnsOk(v, dns[j]) {
      if j > 0 { assert dns[j] == dns[1..][j - 1]; }
    }
  }

  lemma FirstBadRouteCons(v: IpVersion, routes: seq<HostRoute>, e: Error)
    requires |routes| > 0 && RouteOk(v, routes[0]) && FirstBadRoute(v, routes[1..], e)
    ensures FirstBadRoute(v, routes, e)
  {
    var i :| 0 <= i < |routes[1..]| && !RouteOk(v, routes[1..][i]) && (forall j | 0 <= j < i :: RouteOk(v, routes[1..][j]))
             && e == RouteError(v, routes[1..][i]);
    assert routes[i + 1] == routes[1..][i];
    forall j | 0 <= j < i + 1 ensures RouteOk(v, routes[j]) {
      if j > 0 { assert routes[j] == routes[1..][j - 1]; }
    }
  }

  /** IPv4 carries no IPv6 mode; IPv6 modes obey the create or update rules. */
  predicate FamilyRule(env: Env, s: SubnetSpec, cur: Option<Subnet>) {
    if s.ipVersion == V4 then
      !ModesSet(s.ipv6RaMode, s.ipv6AddressMode)
    else if cur.Some? then
      s.enableDhcp == Some(false) ==>
        !ModesSet(s.ipv6RaMode, s.ipv6AddressMode) && !ModesSet(cur.value.ipv6RaMode, cur.value.ipv6AddressMode)
    else
      ModesSet(s.ipv6RaMode, s.ipv6AddressMode) ==>
        && Truthy(s.enableDhcp)
        && (s.ipv6RaMode.Some? && s.ipv6AddressMode.Some? ==> s.ipv6RaMode == s.ipv6AddressMode)
        && (env.isAutoAddressSubnet(s.ipv6RaMode, s.ipv6AddressMode) ==> s.cidr.len == 64)
  }

  predicate SubnetRulesHold(env: Env, s: SubnetSpec, cur: Option<Subnet>,
                            allocations: seq<Allocation>, routerPorts: set<Id>) {
    && CidrRule(s)
    && DhcpRule(s, cur)
    && GatewayRule(env, s, cur, allocations, routerPorts)
    && DnsRule(env, s)
    && RouteRule(env, s)
    && FamilyRule(env, s, cur)
  }

  // ---------------------------------------------------------------------
  // The rule engine

  /** `_validate_subnet(context, s, cur_subnet)`. `allocations` are the IP
      allocations on the network joined with their ports, `routerPorts` the
      ports registered as router ports. */
  function ValidateSubnet(env: Env, s: SubnetSpec, cur: Option<Subnet>,
                          allocations: seq<Allocation>, routerPorts: set<Id>): (r: Outcome<Error>)
    ensures r.Pass? <==> SubnetRulesHold(env, s, cur, allocations, routerPorts)
  {
    if s.cidr.version != s.ipVersion then
      Fail(InvalidInput(IpVersionMismatch(CidrField)))
    else if DhcpNewlyEnabled(s, cur) && PrefixTooLongForDhcp(s) then
      Fail(InvalidInput(PrefixLengthIncompatibleWithDhcp))
    else if DhcpNewlyEnabled(s, cur) && IsMulticast(s.cidr) then
      Fail(InvalidInput(MulticastWithDhcp))
    else if DhcpNewlyEnabled(s, cur) && IsLoopback(s.cidr) then
      Fail(InvalidInput(LoopbackWithDhcp))
    else
      var g := CheckGateway(env, s, cur, allocations, routerPorts);
      if g.Fail? then g
      else
        var d := CheckDnsNameservers(env, s);
        if d.Fail? then d
        else
          var h := CheckHostRoutes(env, s);
          if h.Fail? then h
          else if s.ipVersion == V4 then CheckNoIpv6Modes(s)
          else CheckIpv6Attributes(env, s, cur)
  }

  function CheckGateway(env: Env, s: SubnetSpec, cur: Option<Subnet>,
                        allocations: seq<Allocation>, routerPorts: set<Id>): (r: Outcome<Error>)
    ensures r.Pass? <==> GatewayRule(env, s, cur, allocations, routerPorts)
    ensures s.gatewayIp.Some? && s.gatewayIp.value.version != s.ipVersion ==>
              r == Fail(InvalidInput(IpVersionMismatch(GatewayIpField)))
    ensures s.gatewayIp.Some? && s.gatewayIp.value.version == s.ipVersion
            && env.gatewayInvalidInSubnet(s.cidr, s.gatewayIp.value) ==>
              r == Fail(InvalidInput(GatewayNotValid))
    ensures r.Fail? && !r.error.InvalidInput? ==>
              && r.error.GatewayIpInUse? && cur.Some?
              && exists a | a in allocations :: BindsGateway(a, routerPorts, cur.value.id, cur.value.gatewayIp)
                                                && a.ipAddress == r.error.ipAddress && a.portId == r.error.portId
  {
    if s.gatewayIp.None? then
      Pass
    else if s.gatewayIp.value.version != s.ipVersion then
      Fail(InvalidInput(IpVersionMismatch(GatewayIpField)))
    else if env.gatewayInvalidInSubnet(s.cidr, s.gatewayIp.value) then
      Fail(InvalidInput(GatewayNotValid))
    else if cur.Some? && !env.isIpv6PdEnabled(s.subnetpoolId) then
      match RouterAllocationOf(allocations, routerPorts, cur.value.id, cur.value.gatewayIp)
      case Some(a) => Fail(GatewayIpInUse(a.ipAddress, a.portId))
      case None => Pass
    else
      Pass
  }

  function CheckDnsNameservers(env: Env, s: SubnetSpec): (r: Outcome<Error>)
    ensures r.Pass? <==> DnsRule(env, s)
    ensures r.Fail? && s.dnsNameservers.Some? && |s.dnsNameservers.value| <= env.maxDnsNameservers ==>
              FirstBadDns(s.ipVersion, s.dnsNameservers.value, r.error)
  {
    if s.dnsNameservers.None? then
      Pass
    else if |s.dnsNameservers.value| > env.maxDnsNameservers then
      Fail(DnsNameServersExhausted(env.maxDnsNameservers))
    else
      CheckDnsList(s.ipVersion, s.dnsNameservers.value)
  }

  /** Each nameserver in order: it must parse, then match the subnet's family. */
  function CheckDnsList(v: IpVersion, dns: seq<Parsed<Address>>): (r: Outcome<Error>)
    ensures r.Pass? <==> forall i | 0 <= i < |dns| :: DnsOk(v, dns[i])
    ensures r.Fail? ==> r.error in {InvalidInput(BadDnsAddress), InvalidInput(IpVersionMismatch(DnsNameserverField))}
    ensures r.Fail? ==> FirstBadDns(v, dns, r.error)
  {
    if |dns| == 0 then
      Pass
    else if dns[0].Unparseable? then
      assert !DnsOk(v, dns[0]);
      Fail(InvalidInput(BadDnsAddress))
    else if dns[0].value.version != v then
      assert !DnsOk(v, dns[0]);
      Fail(InvalidInput(IpVersionMismatch(DnsNameserverField)))
    else
      var r := CheckDnsList(v, dns[1..]);
      assert forall i | 1 <= i < |dns| :: dns[i] == dns[1..][i - 1];
      if r.Fail? then FirstBadDnsCons(v, dns, r.error); r else r
  }

  function CheckHostRoutes(env: Env, s: SubnetSpec): (r: Outcome<Error>)
    ensures r.Pass? <==> RouteRule(env, s)
    ensures r.Fail? && s.hostRoutes.Some? && |s.hostRoutes.value| <= env.maxSubnetHostRoutes ==>
              FirstBadRoute(s.ipVersion, s.hostRoutes.value, r.error)
  {
    if s.hostRoutes.None? then
      Pass
    else if |s.hostRoutes.value| > env.maxSubnetHostRoutes then
      Fail(HostRoutesExhausted(env.maxSubnetHostRoutes))
    else
      CheckRouteList(s.ipVersion, s.hostRoutes.value)
  }

  /** `_validate_host_route` on each route in order: both ends must parse, then
      the next hop and then the destination must match the subnet's family. */
  function CheckRouteList(v: IpVersion, routes: seq<HostRoute>): (r: Outcome<Error>)
    ensures r.Pass? <==> forall i | 0 <= i < |routes| :: RouteOk(v, routes[i])
    ensures r.Fail? ==> r.error in {InvalidInput(BadHostRoute), InvalidInput(IpVersionMismatch(NexthopField)),
                                    InvalidInput(IpVersionMismatch(DestinationField))}
    ensures r.Fail? ==> FirstBadRoute(v, routes, r.error)
  {
    if |routes| == 0 then
      Pass
    else
      var rt := routes[0];
      if rt.destination.Unparseable? || rt.nexthop.Unparseable? then
        assert !RouteOk(v, routes[0]);
        Fail(InvalidInput(BadHostRoute))
      else if rt.nexthop.value.version != v then
        assert !RouteOk(v, routes[0]);
        Fail(InvalidInput(IpVersionMismatch(NexthopField)))
      else if rt.destination.value.version != v then
        assert !RouteOk(v, routes[0]);
        Fail(InvalidInput(IpVersionMismatch(DestinationField)))
      else
        var r := CheckRouteList(v, routes[1..]);
        assert forall i | 1 <= i < |routes| :: routes[i] == routes[1..][i - 1];
        if r.Fail? then FirstBadRouteCons(v, routes, r.error); r else r
  }

  function CheckNoIpv6Modes(s: SubnetSpec): (r: Outcome<Error>)
    ensures r.Pass? <==> !ModesSet(s.ipv6RaMode, s.ipv6AddressMode)
    ensures s.ipv6RaMode.Some? ==> r == Fail(InvalidInput(RaModeOnIpv4))
    ensures s.ipv6RaMode.None? && s.ipv6AddressMode.Some? ==> r == Fail(InvalidInput(AddressModeOnIpv4))
  {
    if s.ipv6RaMode.Some? then
      Fail(InvalidInput(RaModeOnIpv4))
    else if s.ipv6AddressMode.Some? then
      Fail(InvalidInput(AddressModeOnIpv4))
    else
      Pass
  }

  /** `_validate_ipv6_attributes`: on update only the DHCP-disable rule applies;
      on create, modes need DHCP, must agree when both are set, and an
      auto-addressing subnet must be a /64 (section 5.5.3 of RFC 4862, with the
      interface identifier fixed to EUI-64). */
  function CheckIpv6Attributes(env: Env, s: SubnetSpec, cur: Option<Subnet>): (r: Outcome<Error>)
    requires s.ipVersion == V6
    ensures r.Pass? <==> FamilyRule(env, s, cur)
    ensures cur.None? && ModesSet(s.ipv6RaMode, s.ipv6AddressMode) && !Truthy(s.enableDhcp) ==>
              r == Fail(InvalidInput(Ipv6ModesWithoutDhcp))
    ensures cur.None? && Truthy(s.enableDhcp) && s.ipv6RaMode.Some? && s.ipv6AddressMode.Some?
            && s.ipv6RaMode != s.ipv6AddressMode ==>
              r == Fail(InvalidInput(Ipv6ModeCombination))
    ensures cur.None? && Truthy(s.enableDhcp) && ModesSet(s.ipv6RaMode, s.ipv6AddressMode)
            && !(s.ipv6RaMode.Some? && s.ipv6AddressMode.Some? && s.ipv6RaMode != s.ipv6AddressMode)
            && env.isAutoAddressSubnet(s.ipv6RaMode, s.ipv6AddressMode) && s.cidr.len != 64 ==>
              r == Fail(InvalidInput(NotEui64Prefix))
    ensures cur.Some? && r.Fail? ==> r.error == InvalidInput(CannotDisableDhcp)
  {
    if cur.Some? then
      CheckIpv6UpdateDhcp(s, cur.value)
    else
      var raSet := s.ipv6RaMode.Some?;
      var amSet := s.ipv6AddressMode.Some?;
      if (raSet || amSet) && !Truthy(s.enableDhcp) then
        Fail(InvalidInput(Ipv6ModesWithoutDhcp))
      else if raSet && amSet && s.ipv6RaMode != s.ipv6AddressMode then
        Fail(InvalidInput(Ipv6ModeCombination))
      else if (raSet || amSet) && env.isAutoAddressSubnet(s.ipv6RaMode, s.ipv6AddressMode) && s.cidr.len != 64 then
        Fail(InvalidInput(NotEui64Prefix))
      else
        Pass
  }

  /** `_validate_ipv6_update_dhcp`: DHCP cannot be switched off while the
      request or the stored subnet carries an IPv6 mode. */
  function CheckIpv6UpdateDhcp(s: SubnetSpec, cur: Subnet): (r: Outcome<Error>)
    ensures r.Fail? <==> s.enableDhcp == Some(false) &&
                         (ModesSet(s.ipv6RaMode, s.ipv6AddressMode) || ModesSet(cur.ipv6RaMode, cur.ipv6AddressMode))
    ensures r.Fail? ==> r.error == InvalidInput(CannotDisableDhcp)
  {
    if s.enableDhcp == Some(false) then
      if ModesSet(s.ipv6RaMode, s.ipv6AddressMode) then
        Fail(InvalidInput(CannotDisableDhcp))
      else if ModesSet(cur.ipv6RaMode, cur.ipv6AddressMode) then
        Fail(InvalidInput(CannotDisableDhcp))
      else
        Pass
    else
      Pass
  }

  /** `_validate_subnet_for_pd`: prefix delegation needs IPv6 and both modes
      in {SLAAC, DHCPv6-stateless}. */
  function ValidateSubnetForPd(ipVersion: Option<IpVersion>, ra: Option<Ipv6Mode>, am: Option<Ipv6Mode>): (r: Outcome<Error>)
    ensures r.Pass? <==> ipVersion == Some(V6) && PdMode(ra) && PdMode(am)
    ensures ipVersion != Some(V6) ==> r == Fail(BadRequest(PdRequiresIpv6))
    ensures r.Fail? ==> r.error.BadRequest?
  {
    if ipVersion != Some(V6) then
      Fail(BadRequest(PdRequiresIpv6))
    else if !PdMode(ra) then
      Fail(BadRequest(PdRaMode))
    else if !PdMode(am) then
      Fail(BadRequest(PdAddressMode))
    else
      Pass
  }

  predicate PdMode(m: Option<Ipv6Mode>) {
    m == Some(Slaac) || m == Some(Dhcpv6Stateless)
  }

  // ---------------------------------------------------------------------
  // Which error is reported

  /** A cidr of the wrong family is the first thing reported. */
  lemma CidrFamilyReportedFirst(env: Env, s: SubnetSpec, cur: Option<Subnet>,
                                allocations: seq<Allocation>, routerPorts: set<Id>)
    requires s.cidr.version != s.ipVersion
    ensures ValidateSubnet(env, s, cur, allocations, routerPorts) == Fail(InvalidInput(IpVersionMismatch(CidrField)))
  {
  }

  /** Turning DHCP on for an IPv4 subnet longer than /30 or an IPv6 subnet
      longer than /126 is refused for the prefix length; a multicast or
      loopback cidr is refused for its range. */
  lemma DhcpRangeReported(env: Env, s: SubnetSpec, cur: Option<Subnet>,
                          allocations: seq<Allocation>, routerPorts: set<Id>)
    requires CidrRule(s) && DhcpNewlyEnabled(s, cur)
    ensures var r := ValidateSubnet(env, s, cur, allocations, routerPorts);
            && (PrefixTooLongForDhcp(s) ==> r == Fail(InvalidInput(PrefixLengthIncompatibleWithDhcp)))
            && (!PrefixTooLongForDhcp(s) && IsMulticast(s.cidr) ==> r == Fail(InvalidInput(MulticastWithDhcp)))
            && (!PrefixTooLongForDhcp(s) && !IsMulticast(s.cidr) && IsLoopback(s.cidr) ==>
                  r == Fail(InvalidInput(LoopbackWithDhcp)))
  {
  }

  /** When DHCP was already on, the DHCP range rule never fires. */
  lemma DhcpRangeOnlyWhenEnabling(env: Env, s: SubnetSpec, cur: Subnet,
                                  allocations: seq<Allocation>, routerPorts: set<Id>)
    requires cur.enableDhcp
    ensures var r := ValidateSubnet(env, s, Some(cur), allocations, routerPorts);
            r.Fail? ==> r.error !in {InvalidInput(PrefixLengthIncompatibleWithDhcp),
                                     InvalidInput(MulticastWithDhcp), InvalidInput(LoopbackWithDhcp)}
  {
  }

  /** On update of a subnet not under prefix delegation, a request that sets
      a valid gateway fails with GatewayIpInUse when the stored gateway is
      bound to a router port. */
  lemma GatewayInUseReported(env: Env, s: SubnetSpec, cur: Subnet,
                             allocations: seq<Allocation>, routerPorts: set<Id>)
    requires CidrRule(s) && DhcpRule(s, Some(cur))
    requires s.gatewayIp.Some? && s.gatewayIp.value.version == s.ipVersion
    requires !env.gatewayInvalidInSubnet(s.cidr, s.gatewayIp.value)
    requires !env.isIpv6PdEnabled(s.subnetpoolId)
    requires exists a | a in allocations :: BindsGateway(a, routerPorts, cur.id, cur.gatewayIp)
    ensures var r := ValidateSubnet(env, s, Some(cur), allocations, routerPorts);
            r.Fail? && r.error.GatewayIpInUse? && Some(r.error.ipAddress) == cur.gatewayIp
  {
  }

  /** Too many nameservers or too many host routes exhaust their quota. */
  lemma QuotasReported(env: Env, s: SubnetSpec, cur: Option<Subnet>,
                       allocations: seq<Allocation>, routerPorts: set<Id>)
    requires CidrRule(s) && DhcpRule(s, cur) && GatewayRule(env, s, cur, allocations, routerPorts)
    ensures var r := ValidateSubnet(env, s, cur, allocations, routerPorts);
            && (s.dnsNameservers.Some? && |s.dnsNameservers.value| > env.maxDnsNameservers ==>
                  r == Fail(DnsNameServersExhausted(env.maxDnsNameservers)))
            && (DnsRule(env, s) && s.hostRoutes.Some? && |s.hostRoutes.value| > env.maxSubnetHostRoutes ==>
                  r == Fail(HostRoutesExhausted(env.maxSubnetHostRoutes)))
  {
  }

  /** Every field in the wrong family is refused, and so is an IPv6 mode on
      an IPv4 subnet. Once the rules checked before it hold, a wrong-family
      or invalid gateway and an IPv6 mode on IPv4 each report their own error. */
  lemma FamilyMismatchRejected(env: Env, s: SubnetSpec, cur: Option<Subnet>,
                               allocations: seq<Allocation>, routerPorts: set<Id>)
    ensures var r := ValidateSubnet(env, s, cur, allocations, routerPorts);
            && (s.gatewayIp.Some? && s.gatewayIp.value.version != s.ipVersion ==> r.Fail?)
            && (s.dnsNameservers.Some? &&
                (exists i | 0 <= i < |s.dnsNameservers.value| :: !DnsOk(s.ipVersion, s.dnsNameservers.value[i]))
                ==> r.Fail?)
            && (s.hostRoutes.Some? &&
                (exists i | 0 <= i < |s.hostRoutes.value| :: !RouteOk(s.ipVersion, s.hostRoutes.value[i]))
                ==> r.Fail?)
            && (s.ipVersion == V4 && ModesSet(s.ipv6RaMode, s.ipv6AddressMode) ==> r.Fail?)
            && (CidrRule(s) && DhcpRule(s, cur) && s.gatewayIp.Some? ==>
                  && (s.gatewayIp.value.version != s.ipVersion ==>
                        r == Fail(InvalidInput(IpVersionMismatch(GatewayIpField))))
                  && (s.gatewayIp.value.version == s.ipVersion && env.gatewayInvalidInSubnet(s.cidr, s.gatewayIp.value) ==>
                        r == Fail(InvalidInput(GatewayNotValid))))
            && (&& CidrRule(s) && DhcpRule(s, cur) && GatewayRule(env, s, cur, allocations, routerPorts)
                && DnsRule(env, s) && RouteRule(env, s) && s.ipVersion == V4 ==>
                  && (s.ipv6RaMode.Some? ==> r == Fail(InvalidInput(RaModeOnIpv4)))
                  && (s.ipv6RaMode.None? && s.ipv6AddressMode.Some? ==> r == Fail(InvalidInput(AddressModeOnIpv4))))
  {
  }

  /** Within quota, the first bad nameserver, and once the nameservers pass
      the first bad host route, decides the error reported. */
  lemma FirstBadEntryReported(env: Env, s: SubnetSpec, cur: Option<Subnet>,
                              allocations: seq<Allocation>, routerPorts: set<Id>)
    requires CidrRule(s) && DhcpRule(s, cur) && GatewayRule(env, s, cur, allocations, routerPorts)
    ensures var r := ValidateSubnet(env, s, cur, allocations, routerPorts);
            && (s.dnsNameservers.Some? && |s.dnsNameservers.value| <= env.maxDnsNameservers && !DnsRule(env, s) ==>
                  r.Fail? && FirstBadDns(s.ipVersion, s.dnsNameservers.value, r.error))
            && (DnsRule(env, s) && s.hostRoutes.Some? && |s.hostRoutes.value| <= env.maxSubnetHostRoutes
                && !RouteRule(env, s) ==>
                  r.Fail? && FirstBadRoute(s.ipVersion, s.hostRoutes.value, r.error))
  {
  }

  /** The IPv6 mode rules: on create, a mode without DHCP, two different
      modes, or an auto-addressing subnet that is not a /64 is refused; on
      update, disabling DHCP while either side has a mode is refused. Once
      the rules checked before them hold, each reports its own error, in
      that order. */
  lemma Ipv6ModeRulesEnforced(env: Env, s: SubnetSpec, cur: Option<Subnet>,
                              allocations: seq<Allocation>, routerPorts: set<Id>)
    requires s.ipVersion == V6
    ensures var r := ValidateSubnet(env, s, cur, allocations, routerPorts);
            && (cur.None? && ModesSet(s.ipv6RaMode, s.ipv6AddressMode) && !Truthy(s.enableDhcp) ==> r.Fail?)
            && (cur.None? && s.ipv6RaMode.Some? && s.ipv6AddressMode.Some? && s.ipv6RaMode != s.ipv6AddressMode ==> r.Fail?)
            && (cur.None? && ModesSet(s.ipv6RaMode, s.ipv6AddressMode)
                && env.isAutoAddressSubnet(s.ipv6RaMode, s.ipv6AddressMode) && s.cidr.len != 64
                ==> r.Fail?)
            && (cur.Some? && s.enableDhcp == Some(false)
                && (ModesSet(s.ipv6RaMode, s.ipv6AddressMode) || ModesSet(cur.value.ipv6RaMode, cur.value.ipv6AddressMode))
                ==> r.Fail?)
            && (&& CidrRule(s) && DhcpRule(s, cur) && GatewayRule(env, s, cur, allocations, routerPorts)
                && DnsRule(env, s) && RouteRule(env, s) ==>
                  && (cur.None? && ModesSet(s.ipv6RaMode, s.ipv6AddressMode) && !Truthy(s.enableDhcp) ==>
                        r == Fail(InvalidInput(Ipv6ModesWithoutDhcp)))
                  && (cur.None? && Truthy(s.enableDhcp) && s.ipv6RaMode.Some? && s.ipv6AddressMode.Some?
                      && s.ipv6RaMode != s.ipv6AddressMode ==>
                        r == Fail(InvalidInput(Ipv6ModeCombination)))
                  && (cur.None? && Truthy(s.enableDhcp) && ModesSet(s.ipv6RaMode, s.ipv6AddressMode)
                      && !(s.ipv6RaMode.Some? && s.ipv6AddressMode.Some? && s.ipv6RaMode != s.ipv6AddressMode)
                      && env.isAutoAddressSubnet(s.ipv6RaMode, s.ipv6AddressMode) && s.cidr.len != 64 ==>
                        r == Fail(InvalidInput(NotEui64Prefix)))
                  && (cur.Some? && r.Fail? ==> r.error == InvalidInput(CannotDisableDhcp)))
  {
  }
}

=== FILE: subnetpools.dfy ===
/** Subnet pools: the prefix-update rule, the one-default-per-family rule,
    address-scope association, and deletion. The two invariants the plugin
    keeps over the stored pools — at most one default pool per IP family, and
    pools in one address scope never share an address — are stated as
    `PoolsInvariant` and proved preserved by create and update. */
module SubnetPools {
  import opened Wrappers
  import opened AddressMath
  import opened Compaction
  import opened Entities

  // ---------------------------------------------------------------------
  // Prefix lists and address sets

  /** Some prefix of `a` meets some prefix of `b`. */
  predicate PrefixListsOverlap(a: seq<Prefix>, b: seq<Prefix>) {
    exists x, y | x in a && y in b :: Overlap(x, y)
  }

  /** Comparing prefixes pairwise decides whether the two `IPSet`s intersect. */
  lemma PrefixListsOverlapIffShared(a: seq<Prefix>, b: seq<Prefix>)
    ensures PrefixListsOverlap(a, b) <==> Covered(a) * Covered(b) != {}
  {
    if PrefixListsOverlap(a, b) {
      var x, y :| x in a && y in b && Overlap(x, y);
      OverlapIffShared(x, y);
      var w :| w in Addresses(x) * Addresses(y);
      assert w in Covered(a) * Covered(b);
    }
    if Covered(a) * Covered(b) != {} {
      var w :| w in Covered(a) * Covered(b);
      var x :| x in a && w in Addresses(x);
      var y :| y in b && w in Addresses(y);
      OverlapIffShared(x, y);
    }
  }

  // ---------------------------------------------------------------------
  // Update of the stored record

  /** A request that changes nothing. */
  const NoChange: PoolUpdate := PoolUpdate(None, None, None, None, None, None, None, None, None)

  /** `_update_subnetpool_dict`: every updatable field takes the request's
      value when present; new prefixes must cover every address the pool
      already has, and are stored compacted. */
  function UpdateSubnetpoolDict(orig: SubnetPool, upd: PoolUpdate): (r: Result<SubnetPool, Error>)
    requires upd.prefixes.Some? ==> forall p | p in upd.prefixes.value :: ValidPrefix(p)
    ensures r.Failure? <==> upd.prefixes.Some? && !(Covered(orig.prefixes) <= Covered(upd.prefixes.value))
    ensures r.Failure? ==> r.error == IllegalSubnetPoolPrefixUpdate
    ensures r.Success? ==> Covered(orig.prefixes) <= Covered(r.value.prefixes)
    ensures r.Success? && upd.prefixes.Some? ==>
              Compacted(r.value.prefixes) && Covered(r.value.prefixes) == Covered(upd.prefixes.value)
    ensures r.Success? && upd.prefixes.None? ==> r.value.prefixes == orig.prefixes
    ensures r.Success? ==> && r.value.id == orig.id && r.value.tenantId == orig.tenantId
                           && r.value.ipVersion == orig.ipVersion && r.value.shared == orig.shared
    ensures r.Success? ==> && r.value.name == upd.name.GetOr(orig.name)
                           && r.value.defaultPrefixlen == upd.defaultPrefixlen.GetOr(orig.defaultPrefixlen)
                           && r.value.minPrefixlen == upd.minPrefixlen.GetOr(orig.minPrefixlen)
                           && r.value.maxPrefixlen == upd.maxPrefixlen.GetOr(orig.maxPrefixlen)
                           && r.value.isDefault == upd.isDefault.GetOr(orig.isDefault)
                           && r.value.defaultQuota == upd.defaultQuota.GetOr(orig.defaultQuota)
                           && r.value.addressScopeId == upd.addressScopeId.GetOr(orig.addressScopeId)
                           && r.value.description == upd.description.GetOr(orig.description)
  {
    if upd.prefixes.Some? && !(Covered(orig.prefixes) <= Covered(upd.prefixes.value)) then
      Failure(IllegalSubnetPoolPrefixUpdate)
    else
      var prefixes := if upd.prefixes.Some? then Compact(upd.prefixes.value) else orig.prefixes;
      Success(orig.(
        name := upd.name.GetOr(orig.name),
        prefixes := prefixes,
        defaultPrefixlen := upd.defaultPrefixlen.GetOr(orig.defaultPrefixlen),
        minPrefixlen := upd.minPrefixlen.GetOr(orig.minPrefixlen),
        maxPrefixlen := upd.maxPrefixlen.GetOr(orig.maxPrefixlen),
        isDefault := upd.isDefault.GetOr(orig.isDefault),
        defaultQuota := upd.defaultQuota.GetOr(orig.defaultQuota),
        addressScopeId := upd.addressScopeId.GetOr(orig.addressScopeId),
        description := upd.description.GetOr(orig.description)))
  }

  /** An empty update leaves the pool exactly as stored. */
  lemma UpdateNothingKeepsPool(orig: SubnetPool)
    ensures UpdateSubnetpoolDict(orig, NoChange) == Success(orig)
  {
  }

  /** Re-sending the pool's own prefixes (or any list covering the same
      addresses) is accepted, and the stored list then covers exactly them. */
  lemma ResendingPrefixesAccepted(orig: SubnetPool, upd: PoolUpdate)
    requires upd.prefixes.Some? && forall p | p in upd.prefixes.value :: ValidPrefix(p)
    requires Covered(upd.prefixes.value) == Covered(orig.prefixes)
    ensures var r := UpdateSubnetpoolDict(orig, upd);
            r.Success? && Covered(r.value.prefixes) == Covered(orig.prefixes)
  {
  }

  // ---------------------------------------------------------------------
  // Default pools

  predicate IsDefaultFor(p: SubnetPool, v: IpVersion) {
    p.isDefault && p.ipVersion == v
  }

  /** `get_default_subnetpool`: the first stored pool marked default for the family. */
  function DefaultPool(pools: seq<SubnetPool>, v: IpVersion): (r: Option<SubnetPool>)
    ensures r.None? <==> forall p | p in pools :: !IsDefaultFor(p, v)
    ensures r.Some? ==> exists i | 0 <= i < |pools| ::
              pools[i] == r.value && IsDefaultFor(r.value, v) && forall j | 0 <= j < i :: !IsDefaultFor(pools[j], v)
  {
    if |pools| == 0 then
      None
    else if IsDefaultFor(pools[0], v) then
      Some(pools[0])
    else
      var r := DefaultPool(pools[1..], v);
      assert forall p | p in pools :: p == pools[0] || p in pools[1..];
      if r.Some? then
        var i :| 0 <= i < |pools[1..]| && pools[1..][i] == r.value && IsDefaultFor(r.value, v)
                 && forall j | 0 <= j < i :: !IsDefaultFor(pools[1..][j], v);
        assert pools[i + 1] == r.value;
        assert forall j | 1 <= j < i + 1 :: pools[j] == pools[1..][j - 1];
        r
      else
        r
  }

  /** `_check_default_subnetpool_exists`. */
  function CheckDefaultSubnetpoolExists(pools: seq<SubnetPool>, v: IpVersion): (r: Outcome<Error>)
    ensures r.Pass? <==> forall p | p in pools :: !IsDefaultFor(p, v)
    ensures r.Fail? ==> r.error == InvalidInput(DefaultSubnetpoolExists)
  {
    if DefaultPool(pools, v).Some? then Fail(InvalidInput(DefaultSubnetpoolExists)) else Pass
  }

  // ---------------------------------------------------------------------
  // Address scopes

  predicate InScope(p: SubnetPool, scope: Id, exclude: Option<Id>) {
    p.addressScopeId == Some(scope) && exclude != Some(p.id)
  }

  /** No other pool of the scope shares an address with `prefixes`. */
  predicate NoScopeConflict(pools: seq<SubnetPool>, scope: Id, exclude: Option<Id>, prefixes: seq<Prefix>) {
    forall p | p in pools && InScope(p, scope, exclude) :: Covered(p.prefixes) * Covered(prefixes) == {}
  }

  /** The first pool of the scope, other than `exclude`, whose prefixes meet `prefixes`. */
  function ConflictingPool(pools: seq<SubnetPool>, scope: Id, exclude: Option<Id>, prefixes: seq<Prefix>)
    : (r: Option<SubnetPool>)
    ensures r.None? <==> NoScopeConflict(pools, scope, exclude, prefixes)
    ensures r.Some? ==> r.value in pools && InScope(r.value, scope, exclude)
    ensures r.Some? ==> Covered(r.value.prefixes) * Covered(prefixes) != {}
  {
    if |pools| == 0 then
      None
    else
      var p := pools[0];
      PrefixListsOverlapIffShared(p.prefixes, prefixes);
      assert forall q | q in pools :: q == p || q in pools[1..];
      if InScope(p, scope, exclude) && PrefixListsOverlap(p.prefixes, prefixes) then
        Some(p)
      else
        ConflictingPool(pools[1..], scope, exclude, prefixes)
  }

  /** `_validate_address_scope_id`: associating a pool with a scope needs the
      caller to own the scope (or be admin), the same IP family, and no
      address shared with another pool of the scope. `poolId` is the pool
      being updated, which is not compared with itself. */
  function ValidateAddressScopeId(dir: ScopeDirectory, scopeId: Option<Id>, poolId: Option<Id>,
                                  prefixes: seq<Prefix>, v: IpVersion, pools: seq<SubnetPool>): (r: Outcome<Error>)
    ensures r.Pass? <==> scopeId.None? ||
                         (&& dir.ownedByCaller(scopeId.value)
                          && dir.ipVersionOf(scopeId.value) == v
                          && NoScopeConflict(pools, scopeId.value, poolId, prefixes))
    ensures scopeId.Some? && !dir.ownedByCaller(scopeId.value) ==>
              r == Fail(IllegalSubnetPoolAssociationToAddressScope)
    ensures scopeId.Some? && dir.ownedByCaller(scopeId.value) && dir.ipVersionOf(scopeId.value) != v ==>
              r == Fail(IllegalSubnetPoolIpVersionAssociationToAddressScope(dir.ipVersionOf(scopeId.value)))
    ensures scopeId.Some? && dir.ownedByCaller(scopeId.value) && dir.ipVersionOf(scopeId.value) == v
            && !NoScopeConflict(pools, scopeId.value, poolId, prefixes) ==>
              r == Fail(AddressScopePrefixConflict)
  {
    if scopeId.None? then
      Pass
    else if !dir.ownedByCaller(scopeId.value) then
      Fail(IllegalSubnetPoolAssociationToAddressScope)
    else if dir.ipVersionOf(scopeId.value) != v then
      Fail(IllegalSubnetPoolIpVersionAssociationToAddressScope(dir.ipVersionOf(scopeId.value)))
    else if ConflictingPool(pools, scopeId.value, poolId, prefixes).Some? then
      Fail(AddressScopePrefixConflict)
    else
      Pass
  }

  // ---------------------------------------------------------------------
  // The stored-pool invariants

  predicate OneDefaultPerFamily(pools: seq<SubnetPool>) {
    forall i, j | 0 <= i < j < |pools| ::
      pools[i].isDefault && pools[j].isDefault ==> pools[i].ipVersion != pools[j].ipVersion
  }

  predicate ScopesDisjoint(pools: seq<SubnetPool>) {
    forall i, j | 0 <= i < j < |pools| ::
      pools[i].addressScopeId.Some? && pools[i].addressScopeId == pools[j].addressScopeId ==>
        Covered(pools[i].prefixes) * Covered(pools[j].prefixes) == {}
  }

  predicate UniqueIds(pools: seq<SubnetPool>) {
    forall i, j | 0 <= i < j < |pools| :: pools[i].id != pools[j].id
  }

  predicate PoolsInvariant(pools: seq<SubnetPool>) {
    OneDefaultPerFamily(pools) && ScopesDisjoint(pools)
  }

  // ---------------------------------------------------------------------
  // Create, update, delete

  /** `create_subnetpool`: `sp` is the pool as the request reader built it. */
  function CreateSubnetpool(dir: ScopeDirectory, pools: seq<SubnetPool>, sp: SubnetPool): (r: Result<SubnetPool, Error>)
    ensures r.Success? <==>
              && (sp.isDefault ==> forall p | p in pools :: !IsDefaultFor(p, sp.ipVersion))
              && (sp.addressScopeId.Some? ==>
                    && dir.ownedByCaller(sp.addressScopeId.value)
                    && dir.ipVersionOf(sp.addressScopeId.value) == sp.ipVersion
                    && NoScopeConflict(pools, sp.addressScopeId.value, None, sp.prefixes))
    ensures r.Success? ==> r.value == sp
    ensures r == Failure(InvalidInput(DefaultSubnetpoolExists)) ==> sp.isDefault
    ensures sp.isDefault && (exists p | p in pools :: IsDefaultFor(p, sp.ipVersion)) ==>
              r == Failure(InvalidInput(DefaultSubnetpoolExists))
    ensures var scope := ValidateAddressScopeId(dir, sp.addressScopeId, None, sp.prefixes, sp.ipVersion, pools);
            ((sp.isDefault ==> forall p | p in pools :: !IsDefaultFor(p, sp.ipVersion)) && scope.Fail?) ==>
              r == Failure(scope.error)
  {
    if sp.isDefault && CheckDefaultSubnetpoolExists(pools, sp.ipVersion).Fail? then
      Failure(InvalidInput(DefaultSubnetpoolExists))
    else
      var scope := ValidateAddressScopeId(dir, sp.addressScopeId, None, sp.prefixes, sp.ipVersion, pools);
      if scope.Fail? then Failure(scope.error) else Success(sp)
  }

  /** A successful create keeps both stored-pool invariants. */
  lemma CreatePreservesPoolsInvariant(dir: ScopeDirectory, pools: seq<SubnetPool>, sp: SubnetPool)
    requires PoolsInvariant(pools)
    requires CreateSubnetpool(dir, pools, sp).Success?
    ensures PoolsInvariant(pools + [sp])
  {
    var ps := pools + [sp];
    forall i, j | 0 <= i < j < |ps| && ps[i].isDefault && ps[j].isDefault
      ensures ps[i].ipVersion != ps[j].ipVersion
    {
      if j == |pools| {
        assert ps[i] in pools;
      }
    }
    forall i, j | 0 <= i < j < |ps| && ps[i].addressScopeId.Some? && ps[i].addressScopeId == ps[j].addressScopeId
      ensures Covered(ps[i].prefixes) * Covered(ps[j].prefixes) == {}
    {
      if j == |pools| {
        assert ps[i] in pools && InScope(ps[i], sp.addressScopeId.value, None);
      }
    }
  }

  /** The result of an update: the stored pool and whether its address scope changed. */
  datatype PoolUpdated = PoolUpdated(pool: SubnetPool, scopeChanged: bool)

  /** The guards `update_subnetpool` puts on the merged pool `u`: a pool
      becoming default needs no other default of its family, a pool already
      in a scope may only be changed by that scope's owner, and the new
      scope must accept the pool's family and prefixes. */
  predicate UpdateAllowed(dir: ScopeDirectory, pools: seq<SubnetPool>, orig: SubnetPool, u: SubnetPool) {
    && (u.isDefault && !orig.isDefault ==> forall p | p in pools :: !IsDefaultFor(p, u.ipVersion))
    && (orig.addressScopeId.Some? ==> dir.ownedByCaller(orig.addressScopeId.value))
    && (u.addressScopeId.Some? ==>
          && dir.ownedByCaller(u.addressScopeId.value)
          && dir.ipVersionOf(u.addressScopeId.value) == u.ipVersion
          && NoScopeConflict(pools, u.addressScopeId.value, Some(orig.id), u.prefixes))
  }

  /** `update_subnetpool` on the stored pool `orig`. */
  function UpdateSubnetpool(dir: ScopeDirectory, pools: seq<SubnetPool>, orig: SubnetPool, upd: PoolUpdate)
    : (r: Result<PoolUpdated, Error>)
    requires upd.prefixes.Some? ==> forall p | p in upd.prefixes.value :: ValidPrefix(p)
    ensures r.Success? <==>
              UpdateSubnetpoolDict(orig, upd).Success? && UpdateAllowed(dir, pools, orig, UpdateSubnetpoolDict(orig, upd).value)
    ensures r.Success? ==>
              r.value == PoolUpdated(UpdateSubnetpoolDict(orig, upd).value,
                                     orig.addressScopeId != UpdateSubnetpoolDict(orig, upd).value.addressScopeId)
    ensures UpdateSubnetpoolDict(orig, upd).Failure? ==> r == Failure(IllegalSubnetPoolPrefixUpdate)
    ensures UpdateSubnetpoolDict(orig, upd).Success? ==>
              var u := UpdateSubnetpoolDict(orig, upd).value;
              && (u.isDefault && !orig.isDefault && (exists p | p in pools :: IsDefaultFor(p, u.ipVersion)) ==>
                    r == Failure(InvalidInput(DefaultSubnetpoolExists)))
              && (((u.isDefault && !orig.isDefault ==> forall p | p in pools :: !IsDefaultFor(p, u.ipVersion))
                   && orig.addressScopeId.Some? && !dir.ownedByCaller(orig.addressScopeId.value)) ==>
                    r == Failure(IllegalSubnetPoolUpdate))
              && (var scope := ValidateAddressScopeId(dir, u.addressScopeId, Some(orig.id), u.prefixes, u.ipVersion, pools);
                  ((u.isDefault && !orig.isDefault ==> forall p | p in pools :: !IsDefaultFor(p, u.ipVersion))
                   && (orig.addressScopeId.Some? ==> dir.ownedByCaller(orig.addressScopeId.value))
                   && scope.Fail?) ==> r == Failure(scope.error))
    ensures r == Failure(InvalidInput(DefaultSubnetpoolExists)) ==>
              upd.isDefault == Some(true) && !orig.isDefault
  {
    var u :- UpdateSubnetpoolDict(orig, upd);
    if u.isDefault && !orig.isDefault && CheckDefaultSubnetpoolExists(pools, u.ipVersion).Fail? then
      Failure(InvalidInput(DefaultSubnetpoolExists))
    else if orig.addressScopeId.Some? && !dir.ownedByCaller(orig.addressScopeId.value) then
      Failure(IllegalSubnetPoolUpdate)
    else
      var scope := ValidateAddressScopeId(dir, u.addressScopeId, Some(orig.id), u.prefixes, u.ipVersion, pools);
      if scope.Fail? then Failure(scope.error)
      else Success(PoolUpdated(u, orig.addressScopeId != u.addressScopeId))
  }

  /** A successful update, written back in place, keeps both stored-pool invariants. */
  lemma UpdatePreservesPoolsInvariant(dir: ScopeDirectory, pools: seq<SubnetPool>, k: nat, upd: PoolUpdate)
    requires k < |pools| && PoolsInvariant(pools) && UniqueIds(pools)
    requires upd.prefixes.Some? ==> forall p | p in upd.prefixes.value :: ValidPrefix(p)
    requires UpdateSubnetpool(dir, pools, pools[k], upd).Success?
    ensures PoolsInvariant(pools[k := UpdateSubnetpool(dir, pools, pools[k], upd).value.pool])
  {
    var orig := pools[k];
    var u := UpdateSubnetpool(dir, pools, orig, upd).value.pool;
    var ps := pools[k := u];
    forall i, j | 0 <= i < j < |ps| && ps[i].isDefault && ps[j].isDefault
      ensures ps[i].ipVersion != ps[j].ipVersion
    {
      if i == k {
        assert ps[j] == pools[j] && pools[j] in pools;
      } else if j == k {
        assert ps[i] == pools[i] && pools[i] in pools;
      }
    }
    forall i, j | 0 <= i < j < |ps| && ps[i].addressScopeId.Some? && ps[i].addressScopeId == ps[j].addressScopeId
      ensures Covered(ps[i].prefixes) * Covered(ps[j].prefixes) == {}
    {
      if i == k {
        assert ps[j] == pools[j] && pools[j] in pools && InScope(pools[j], u.addressScopeId.value, Some(orig.id));
      } else if j == k {
        assert ps[i] == pools[i] && pools[i] in pools && InScope(pools[i], u.addressScopeId.value, Some(orig.id));
      }
    }
  }

  predicate ReferencesPool(s: Subnet, poolId: Id) {
    s.subnetpoolId == Some(poolId)
  }

  predicate PoolStored(pools: seq<SubnetPool>, poolId: Id) {
    exists p | p in pools :: p.id == poolId
  }

  /** `delete_subnetpool`: an unknown id is not found; a stored pool is
      refused while any subnet was allocated from it. */
  function DeleteSubnetpool(pools: seq<SubnetPool>, poolId: Id, subnets: seq<Subnet>): (r: Result<seq<SubnetPool>, Error>)
    ensures !PoolStored(pools, poolId) ==> r == Failure(SubnetPoolNotFound(poolId))
    ensures r.Failure? <==> !PoolStored(pools, poolId) || exists s | s in subnets :: ReferencesPool(s, poolId)
    ensures PoolStored(pools, poolId) && r.Failure? ==> r.error == SubnetPoolDeleteError
    ensures r.Success? ==> forall p :: p in r.value <==> p in pools && p.id != poolId
  {
    if !PoolStored(pools, poolId) then
      Failure(SubnetPoolNotFound(poolId))
    else if exists s | s in subnets :: ReferencesPool(s, poolId) then
      Failure(SubnetPoolDeleteError)
    else
      RemovePool(pools, poolId)
  }

  function RemovePool(pools: seq<SubnetPool>, poolId: Id): (r: Result<seq<SubnetPool>, Error>)
    ensures r.Success? && forall p :: p in r.value <==> p in pools && p.id != poolId
  {
    Success(WithoutPool(pools, poolId))
  }

  function WithoutPool(pools: seq<SubnetPool>, poolId: Id): (r: seq<SubnetPool>)
    ensures forall p :: p in r <==> p in pools && p.id != poolId
  {
    if |pools| == 0 then []
    else
      assert forall p :: p in pools <==> p == pools[0] || p in pools[1..];
      (if pools[0].id == poolId then [] else [pools[0]]) + WithoutPool(pools[1..], poolId)
  }

  /** Every subnet's pool, if it names one, is stored. */
  predicate NoDanglingPools(pools: seq<SubnetPool>, subnets: seq<Subnet>) {
    forall s | s in subnets && s.subnetpoolId.Some? :: exists p | p in pools :: p.id == s.subnetpoolId.value
  }

  /** Deletion never leaves a subnet pointing at a missing pool. */
  lemma DeleteKeepsSubnetsAnchored(pools: seq<SubnetPool>, poolId: Id, subnets: seq<Subnet>)
    requires NoDanglingPools(pools, subnets)
    requires DeleteSubnetpool(pools, poolId, subnets).Success?
    ensures NoDanglingPools(DeleteSubnetpool(pools, poolId, subnets).value, subnets)
  {
    var rest := DeleteSubnetpool(pools, poolId, subnets).value;
    forall s | s in subnets && s.subnetpoolId.Some?
      ensures exists p | p in rest :: p.id == s.subnetpoolId.value
    {
      var p :| p in pools && p.id == s.subnetpoolId.value;
      assert p.id != poolId;
      assert p in rest;
    }
  }
}

=== FILE: wrappers.dfy ===
/** Failure-carrying result types shared by the whole model. A Python `raise`
    in the source becomes a `Failure`/`Fail` value carrying the error kind. */
module Wrappers {

  /** A value that may be absent: an unset attribute, a missing key, a null column. */
  datatype Option<+T> = None | Some(value: T) {
    function GetOr(default: T): T {
      if Some? then value else default
    }
  }

  /** The outcome of an operation that produces a value or raises. */
  datatype Result<+T, +E> = Success(value: T) | Failure(error: E) {
    predicate IsFailure() {
      Failure?
    }

    function PropagateFailure<U>(): Result<U, E>
      requires Failure?
    {
      Failure(error)
    }

    function Extract(): T
      requires Success?
    {
      value
    }
  }

  /** The outcome of a check that returns nothing or raises. */
  datatype Outcome<+E> = Pass | Fail(error: E)
}
